=== FILE: README.md ===
# Network echo-chamber models in Dafny

This project models the two simulation engines of the *netechos* repository.
Both are agent-based models of attitude polarisation on a social network.
Each node holds a real-valued attitude. A weighted matrix of tie strengths
says how likely two nodes are to meet in one time step.

- **NetEchos** models `NetworkModel` from `netechos/core.py`. It covers:
  - construction and its validation;
  - edge weights taken from an adjacency matrix;
  - attitudes clipped into `[-π/2, π/2]`;
  - symmetric and asymmetric random interactions;
  - the attitude difference matrix;
  - the sine-driven connection and attitude updates;
  - the summary table and the attitude tracker;
  - the time loop `run_simulation`.
- **Nim** models the functional engine in `nim/model.py`. It covers:
  - the attitude clip into `[-1, 1]`;
  - edge initialisation and random interactions;
  - the three `np.sign`-based edge rules;
  - the four attitude rules. These are applied as an in-place sequential fold over `(i, j)`;
  - the row bookkeeping of `run_model`.
- **Matrices** holds what both engines share: clipping, thresholding random draws against tie strengths, symmetrising with an element-wise maximum, and weighting an adjacency matrix.
- **Tables** holds the row types and the `(time, node)` layout of the attitude tracker.
- **Trajectory** holds what both time loops share. A run is an iterated transition on states of `n` nodes. Its reference trajectory is the state after `t` transitions. Bounds and fixed points of one transition carry along that trajectory.

Randomness, `sin`, powers and summary statistics are passed in as parameters:
- A random uniform matrix becomes one `draws` matrix per tick.
- A random attitude vector becomes a `samples` vector.
- `np.sin` becomes `sin`.
- `x ** α` becomes `pow`.
- The mean/median/sd columns are one `summarize` function.

Every property is therefore proved for any such inputs. Reals are
mathematical reals, so there is no floating point.

Behaviour of the source that the model keeps:
- The difference matrix is `D[i][j] = A[j] - A[i]`, which is what `np.subtract(A, A.T)` on a `(1, n)` row gives.
- In `update_attitudes` the power `A ** α` applies to the partner's attitude `A[j]`, because of broadcasting.
- `run_simulation` writes no time-0 seed row. It stamps tick `t` with `t` for `t` in `0..tmax-1`.
- The `nim` engine uses its own rules, not the sine update:
  - edge rules `type1`–`type3`, built from `np.abs` and `np.sign`;
  - attitude rules `type1`–`type4`.
- The `nim` attitude update is sequential: an update of `attitudes[i]` is seen by every later term.
- `run_model` writes a time-0 seed row. Its first tick is stamped 0 as well, so time 0 appears twice.
- The `if i == j: next` in both `nim` loops does nothing, because `next` is a builtin name and not `continue`. The diagonal terms are computed anyway. They vanish under every edge rule and under attitude rules `type1`, `type3` and `type4`. Under attitude rule `type2` the diagonal term vanishes only when the self weight is non-zero; on a zero diagonal it is `0 / 0`.
- `type2` of `update_attitudes` divides by the edge weight without a guard.

## Model

| member | source | states |
|---|---|---|
| Matrices.Clip | netechos/core.py:267 | the result lies in `[lo, hi]`; a value already in range is returned unchanged; below `lo` gives `lo`; above `hi` gives `hi` |
| Matrices.ClipVector | nim/model.py:107-108 | element-wise clip: same length, every entry in range, in-range entries kept, out-of-range entries pinned to the violated bound; an in-range vector is returned as is |
| Matrices.Threshold | netechos/core.py:228 | the result is a 0/1 matrix whose entry `(i, j)` is 1 exactly when the draw is at most the tie strength |
| Matrices.Symmetrize | netechos/core.py:229 | the element-wise maximum with the transpose is symmetric, dominates both `m[i][j]` and `m[j][i]`, is one of the two, and keeps a 0/1 matrix 0/1 |
| Matrices.SymmetrizeFixesSymmetric | netechos/core.py:229 | symmetrising a matrix that is already symmetric changes nothing |
| Matrices.WeightAdjacency | netechos/core.py:157-159 | a non-zero scaled entry is kept; every scaled entry that is zero becomes the non-neighbour weight |
| Matrices.RootOfSquare | nim/model.py:296 | `np.sqrt(x ** 2)` is a non-negative root of `x²` |
| Matrices.SqrtOfSquare | nim/model.py:296 | `x²` has exactly one non-negative root, `|x|`. This is why `np.sqrt(x ** 2)`, used by edge rule `type3` and attitude rule `type4`, may be written as RootOfSquare, whose value is `|x|` |
| Matrices.WeightedGraphEntries | nim/model.py:138-140 | on a 0/1 adjacency with a non-zero neighbour weight, an edge gets the neighbour weight and a non-edge the non-neighbour weight; when the two weights differ, an entry equals the neighbour weight exactly when there is an edge |
| Tables.AppendSummary | netechos/core.py:293-303 | concatenation adds exactly one row, stamped with the given time, and keeps every earlier row |
| Tables.AppendTracker | netechos/core.py:313-325 | concatenation keeps every earlier row and appends one row per node, in node order, each carrying the time, the node index and that node's attitude |
| Tables.StampsOfAppend | netechos/core.py:315-324 | the `(time, node)` stamps of an append are the old stamps followed by one block `(time, 0) … (time, n-1)` |
| Tables.ScheduleLength | netechos/core.py:346-352 | `count` ticks of `n` rows give `n · count` tracker rows |
| Tables.ScheduleAt | netechos/core.py:346-352 | row `t · n + k` of the tracker layout is stamped `(t, k)` |
| Tables.ScheduleOrdered | netechos/core.py:346-352 | the tracker layout is sorted by time and then by node, with times in `[0, count)` and nodes in `[0, n)` |
| NetEchos.Create | netechos/core.py:46-56 | construction succeeds exactly when the type is `symmetric` or `asymmetric` and there is at least one node; a bad type is reported first, then a bad node count; on success the parameters are stored as given |
| NetEchos.InitializeConnections | netechos/core.py:157-162 | every weight is the scaled adjacency entry or the non-neighbour weight; a non-zero non-neighbour weight leaves no zero weight; without self-loops the diagonal holds the non-neighbour weight |
| NetEchos.DefaultConnectionsAreAdjacency | netechos/core.py:135-160 | with the default weights `1.0` and `0.0`, the connections of a 0/1 graph are its adjacency matrix and lie in `[0, 1]` |
| NetEchos.InitializeAttitudes | netechos/core.py:197-220 | succeeds exactly for `normal`, `laplace`, `vonmises` and `uniform`; the attitudes are the samples clipped into `[-π/2, π/2]`, with in-range samples kept |
| NetEchos.MakeSymmetricInteractions | netechos/core.py:223-231 | the interactions are 0/1 and symmetric; a pair interacts exactly when either of its two draws is at most its tie strength |
| NetEchos.MakeAsymmetricInteractions | netechos/core.py:233-240 | the interactions are 0/1; `i` meets `j` exactly when draw `(i, j)` is at most the tie strength |
| NetEchos.MakeInteractions | netechos/core.py:242-252 | dispatches on the stored type; any other type is an error; the symmetric type yields a symmetric matrix |
| NetEchos.CreatedModelInteracts | netechos/core.py:242-252 | a successfully constructed model can always make interactions, so the error branch is unreachable after validation |
| NetEchos.DifferenceMatrix | netechos/core.py:254-259 | `D[i][j]` is `A[j] - A[i]`; the diagonal is zero; `D` is antisymmetric; for in-range attitudes every entry lies within `±π` |
| NetEchos.Reinforce | netechos/core.py:263-267 | one connection cell stays in `[0, 1]`; without an interaction it is only clipped; with one it is clipped after adding the drive |
| NetEchos.UpdateConnections | netechos/core.py:261-268 | all connections end in `[0, 1]`; a pair that did not interact keeps its clipped strength, and an in-range strength is unchanged; a pair that did interact moves by `sin D[i][j]` and is clipped |
| NetEchos.ConnectionsAtRest | netechos/core.py:263-267 | when every `sin D[i][j]` is zero, in-range connections do not change |
| NetEchos.RowSum | netechos/core.py:272-277 | a node's attitude drive is zero when it met nobody, and zero when every sine term vanishes; its value for a single partner is NetEchos.RowSumSinglePartner |
| NetEchos.RowSumSinglePartner | netechos/core.py:272-277 | a row of the interactions that is 1 at `p` and 0 at every other column from `j` on sums to `p`'s pull `A[p]^α · sin D[i][p]` |
| NetEchos.SinglePartnerRowSum | netechos/core.py:254-277 | with `D` the difference matrix of the attitudes, a node whose only partner is `p` has the drive `A[p]^α · sin(A[p] - A[i])`: the power applies to the partner's attitude and the sine to the partner's lead |
| NetEchos.UpdateAttitudes | netechos/core.py:270-281 | attitudes end in `[-π/2, π/2]`; a node that met nobody keeps its in-range attitude; with `β = 0` in-range attitudes do not move; the value of a single-partner entry is NetEchos.UpdateAttitudesSinglePartner |
| NetEchos.UpdateAttitudesSinglePartner | netechos/core.py:254-281 | with the difference matrix of the attitudes, a node that met exactly one partner `p` ends at `clip(A[i] + β · A[p]^α · sin(A[p] - A[i]), -π/2, π/2)` |
| NetEchos.AttitudesAtRest | netechos/core.py:272-280 | when every `sin D[i][j]` is zero, in-range attitudes do not change |
| Trajectory.TrajectoryBounded | netechos/core.py:344-350 | under a transition that keeps the node count and the bounds, every state of the trajectory has `n` nodes and every state after the first is bounded |
| Trajectory.FixedPointPersists | netechos/core.py:344-350 | a state that every draw leaves in place is the state at every time of the trajectory |
| NetEchos.Step | netechos/core.py:346-350 | one tick fails exactly on an invalid interaction type; it yields 0/1 interactions, symmetric in symmetric mode, connections in `[0, 1]` and attitudes in range |
| NetEchos.EqualAttitudesAreFixed | netechos/core.py:347-350 | when all attitudes agree, and given an exact `sin 0 = 0`, a tick leaves in-range connections and attitudes unchanged, whatever the interactions |
| NetEchos.RecordAttitudes | netechos/core.py:351-352 | one tick's tracker rows extend the layout of `t` ticks to that of `t + 1` ticks |
| NetEchos.Advance | netechos/core.py:346-352 | one loop iteration keeps the recorded-tables invariant from `t` to `t + 1` ticks, or fails exactly on an invalid type |
| NetEchos.Next | netechos/core.py:346-350 | one tick as a total transition: on states of the model's sizes it keeps the sizes, connections in `[0, 1]` and attitudes in range |
| NetEchos.TransitionKeepsBounds | netechos/core.py:346-350 | the tick transition takes every sized state and draw to a sized state with connections in `[0, 1]` and attitudes in range |
| NetEchos.StateAtInRange | netechos/core.py:344-350 | every state on a run's trajectory keeps the node count, and every state after a tick is within both bounds |
| NetEchos.History | netechos/core.py:344-352 | the reference tables after `t` ticks end in the state after `t` transitions and hold `t` summary rows |
| NetEchos.HistoryRowAt | netechos/core.py:344-352 | summary row `s` holds the statistics of the state after tick `s`, and the tracker block of tick `s` holds, for node `k`, its attitude in that state, stamped `(s, k)` |
| NetEchos.HistoryLength | netechos/core.py:351-352 | the reference tracker holds `n` rows per tick |
| NetEchos.ConsensusPersists | netechos/core.py:344-350 | from equal in-range attitudes and in-range connections, with `sin 0 = 0`, the state after every tick is the initial state |
| NetEchos.AdvanceFollowsHistory | netechos/core.py:344-352 | one loop iteration turns the reference tables of `t` ticks into those of `t + 1` ticks |
| NetEchos.RunSimulation | netechos/core.py:327-352 | `tmax < 1` is rejected; otherwise the run succeeds exactly on a valid type. A successful run equals the reference tables of `tmax` ticks: its final state is `tmax` transitions of the initial state, and every summary row and tracker block describes the state after its tick. It yields `tmax` summary rows stamped `0 … tmax-1` and `n · tmax` tracker rows laid out by time then node. Every attitude recorded is in range, and both bounds hold at the end |
| Nim.Sign | nim/model.py:211 | `np.sign` gives a value in `[-1, 1]` whose product with `x` is `|x|`, and it is zero exactly at zero |
| Nim.EdgeRuleOf | nim/model.py:199-200 | exactly `type1`, `type2` and `type3` name an edge rule; anything else is an unsupported method |
| Nim.AttitudeRuleOf | nim/model.py:273-274 | exactly `type1` … `type4` name an attitude rule; anything else is an unsupported method |
| Nim.InitializeAttitudes | nim/model.py:100-110 | only `normal` is supported; the attitudes are the samples clipped into `[-1, 1]`, with in-range samples kept |
| Nim.InitializeEdges | nim/model.py:138-142 | on a 0/1 graph with a non-zero neighbour weight, edges get the neighbour weight and every other pair, the diagonal included, the non-neighbour weight |
| Nim.MakeInteractions | nim/model.py:145-156 | the interactions are 0/1; `i` meets `j` exactly when its draw fires; with reciprocation the matrix is symmetric and a pair meets when either draw fires |
| Nim.EdgeDelta | nim/model.py:204-219 | an edge moves only when the pair interacted and their attitudes differ |
| Nim.EdgeDeltaSwap | nim/model.py:208-219 | swapping the pair negates the change under rules `type1` and `type2`, which compare `|a_i|` with `|a_j|`, and leaves it unchanged under rule `type3`, which uses only the distance and the product |
| Nim.UpdateEdgesWith | nim/model.py:204-223 | every weight ends in `[1e-20, 1]`, so no weight is zero; each cell becomes its weight plus the rule's change for that pair, clamped to `[1e-20, 1]`; a pair that did not interact, and every diagonal entry, is only clamped |
| Nim.UpdateEdges | nim/model.py:199-223 | succeeds exactly for `type1`, `type2` or `type3`, otherwise reports an unsupported method; each cell becomes its weight plus the named rule's change, clamped to `[1e-20, 1]`, so no weight is zero; diagonal cells and pairs that did not interact are only clamped |
| Nim.EdgesAdmitDividingRule | nim/model.py:286-289 | edges produced by any edge update have no zero weight, so the dividing attitude rule `type2` is defined on them |
| Nim.InitialEdgesBarDividingRule | nim/model.py:138-140 | with non-neighbour weight 0, the edges built on a 0/1 graph without self-loops are zero on the diagonal, so attitude rule `type2` cannot run on them |
| Nim.AttitudeDelta | nim/model.py:282-297 | a term vanishes when the pair did not interact, on the diagonal, and whenever the two attitudes are equal |
| Nim.DividingRuleScalesType1 | nim/model.py:282-289 | the `type2` term times the squared weight is the `type1` term: the two rules differ only in multiplying or dividing by the weight |
| Nim.Visit | nim/model.py:298 | visiting `(i, j)` changes only node `i`, subtracting that term |
| Nim.RowFold | nim/model.py:279-298 | folding row `i` changes only node `i`; a row with no interactions changes nothing |
| Nim.Fold | nim/model.py:278-298 | the fold from row `i` onward leaves every node before `i` as it was |
| Nim.FoldKeepsIdleNodes | nim/model.py:278-298 | a node that met nobody has the same attitude after the whole fold |
| Nim.UpdateAttitudesWith | nim/model.py:278-301 | the attitudes end in `[-1, 1]`, and a node that met nobody is only clamped; that this is what the in-place loops compute is Nim.UpdateAttitudesInPlace |
| Nim.UpdateAttitudes | nim/model.py:273-301 | succeeds exactly for `type1` … `type4`, otherwise reports an unsupported method; the attitudes end in `[-1, 1]`, and a node that met nobody is only clamped |
| Nim.UpdateAttitudesInPlace | nim/model.py:278-301 | the nested in-place loops compute the sequential fold of the selected rule, and the attitudes end in `[-1, 1]` |
| Nim.SelfTermVanishes | nim/model.py:280-281 | the diagonal visit, which the no-op `next` fails to skip, leaves the attitudes unchanged under every rule whose terms are defined (for `type2`, no zero weight) |
| Nim.NoOpNextIsHarmless | nim/model.py:280-281 | folding a row with the diagonal skipped gives the same attitudes as folding it without skipping, under every rule whose terms are defined (for `type2`, no zero weight) |
| Nim.AnyRootGivesType3 | nim/model.py:290-297 | for any function that returns a non-negative root of `(a_i - a_j)²`, the `type4` term built with it equals the `type3` term and the modelled `type4` term; so writing `np.sqrt(x ** 2)` as `|x|` loses nothing |
| Nim.RowFoldType3IsType4 | nim/model.py:290-297 | on one row, attitude rules `type3` and `type4` give the same attitudes. The two terms coincide because the model writes `np.sqrt((a_i - a_j) ** 2)` as `|a_i - a_j|`; Matrices.SqrtOfSquare and Nim.AnyRootGivesType3 show that this is the only non-negative root |
| Nim.Type3IsType4 | nim/model.py:290-297 | attitude rules `type3` and `type4` give the same fold over the whole matrix, for the same reason as Nim.RowFoldType3IsType4 |
| Nim.RowFoldAtConsensus | nim/model.py:279-298 | when all attitudes agree, folding a row leaves them unchanged |
| Nim.FoldAtConsensus | nim/model.py:278-298 | when all attitudes agree, the whole fold leaves them unchanged |
| Nim.ConsensusKeepsEdges | nim/model.py:204-223 | when all attitudes agree, every edge rule keeps in-range weights, whatever the interactions |
| Nim.ConsensusKeepsAttitudes | nim/model.py:278-301 | when all attitudes agree, every attitude rule keeps in-range attitudes, whatever the interactions and weights |
| Nim.SequentialFoldIsNotSnapshot | nim/model.py:278-298 | a two-node witness on which the in-place fold differs from an update computed from the attitudes at the start of the step |
| Nim.StepModel | nim/model.py:329-345 | one tick, whatever the state before it, leaves the weights in `[1e-20, 1]` and the attitudes in `[-1, 1]` |
| Nim.StepAtConsensus | nim/model.py:329-345 | when all attitudes agree and both bounds hold, one tick changes neither the weights nor the attitudes |
| Nim.Next | nim/model.py:329-345 | one tick as a total transition: on matching sizes it keeps the sizes, weights in `[1e-20, 1]` and attitudes in `[-1, 1]` |
| Nim.TransitionKeepsBounds | nim/model.py:329-345 | the tick transition takes every sized state and draw to a sized state within both clamping bounds |
| Nim.History | nim/model.py:313-362 | the reference tables after `t` ticks end in the state after `t` transitions and hold the seed row plus `t` summary rows |
| Nim.HistoryRowAt | nim/model.py:328-362 | summary row `s + 1` holds the statistics of the state after tick `s`, and the tracker block of tick `s` holds, for node `k`, its attitude in that state, stamped `(s, k)` |
| Nim.TrackedAttitudesBounded | nim/model.py:328-362 | the reference tracker holds `n · (t + 1)` rows, and every row after the seed block records an attitude in `[-1, 1]` |
| Nim.ConsensusPersists | nim/model.py:328-345 | from equal attitudes in `[-1, 1]` and weights in `[1e-20, 1]`, the state after every tick is the initial state |
| Nim.AdvanceFollowsHistory | nim/model.py:328-362 | one loop iteration turns the reference tables of `t` ticks into those of `t + 1` ticks |
| Nim.RecordAttitudes | nim/model.py:347-351 | one tick's rows extend the tracker layout of `t` ticks, after the seed block, to that of `t + 1` ticks |
| Nim.Advance | nim/model.py:328-362 | one loop iteration moves the state by one `StepModel` and appends one block of tracker rows for the new attitudes and one summary row for the new state, all stamped `t`, keeping the recorded-tables invariant from `t` to `t + 1` ticks |
| Nim.Seed | nim/model.py:313-326 | the seed tables hold one summary row and `n` tracker rows, all stamped 0, describing the initial state |
| Nim.RunSteps | nim/model.py:313-362 | seeding and then `steps` ticks give exactly the reference tables of `steps` ticks; the seed row plus `steps` summary rows are recorded, with the tracker laid out by time then node |
| Nim.RunModel | nim/model.py:304-363 | equals the reference tables of `max(tmax, 0)` ticks, so its final state is that many transitions of the initial state and every block and row describes the state after its tick. It gives `max(tmax, 0) + 1` summary rows and `n · (max(tmax, 0) + 1)` tracker rows: a seed block at time 0, then tick `t` stamped `t`. A non-positive `tmax` returns the initial state. Bounds hold, and the last rows describe the final state |
| Nim.TimeZeroRecordedTwice | nim/model.py:313-362 | with at least one tick, summary rows 0 and 1 are both stamped 0, and so is each node's tracker row in the first two blocks |

## Left out

- `create_network` and the networkx graph generators are not modelled. The adjacency matrix is an input, and a 0/1 matrix without self-loops is assumed only where a lemma says so.
- The random number generator is not modelled. Uniform draws and attitude samples are parameters, and nothing requires the draws to lie in `[0, 1)`. The four `netechos` distributions therefore differ only in their name.
- `np.sin` and `x ** α` are uninterpreted function parameters. A negative exponent at a zero attitude, or a fractional one at a negative attitude, is undefined in floating point and is not modelled.
- Floating-point rounding, NaN and infinity are not modelled. The `np.isfinite` assertions in `nim/model.py` hold trivially on reals and are left out.
- The summary statistics (mean, median, standard deviation) are not modelled. They are one `summarize` function of the connections and attitudes, applied at each recorded time.
- `initialize_summary_table` and `initialize_attitude_tracker` are modelled as empty sequences. The polars schemas, `pl.concat` and `tqdm` are not modelled.
- The NumPy shapes are not modelled. Attitudes are one vector, not a `(1, n)` row, and shape-mismatch errors from NumPy cannot arise because the preconditions fix all sizes.
- Mutation of the `NetworkModel` object is not modelled, and neither is its bookkeeping of distribution and network parameters. Operations return new values, and aliasing of the caller's arrays by the in-place `nim` loops is not modelled.
- Plotting, utilities and the test suite are not modelled.
- NetEchos.RunSimulation and Nim.RunModel also return the final connections and attitudes. The source keeps these on the object or discards them.
- Nim.UpdateAttitudes: rule `type2` is only defined when no edge weight is zero. The source divides without a guard, so a zero weight would give an infinity or NaN. The output of `initialize_edges` may contain zeros, for example with a zero non-neighbour weight, so `type2` is not defined on it. Edges returned by `update_edges` never contain zeros (Nim.EdgesAdmitDividingRule).
- Nim.UpdateAttitudesInPlace: it carries the same requirement for `type2`.
- Nim.SelfTermVanishes: for attitude rule `type2` it needs a non-zero self weight. `initialize_edges` puts the non-neighbour weight, 0 by default, on the diagonal of a graph without self-loops (Nim.InitialEdgesBarDividingRule). There the source's self term is `0 / 0 = NaN`, and the NaN spreads to every later attitude.
- Nim.NoOpNextIsHarmless: it carries the same requirement for `type2`. On a zero diagonal a `continue` would skip the `0 / 0` self term, while the no-op `next` computes it, so in that case the no-op is not harmless.
- NetEchos.EqualAttitudesAreFixed: it assumes `sin 0 = 0` about the `sin` parameter, which holds exactly for the real sine. It also holds only where `A ** α` is finite. At a common attitude of 0 with `α < 0`, each drive term in the source is `∞ · 0 = NaN`, so the attitudes become NaN on the first tick.
- NetEchos.UpdateAttitudes: `pow` is an arbitrary real function, so `A[j]^α` always has a finite value in the model. In the source, a zero attitude with `α < 0` makes `A ** α` infinite; the default is `α = -1` (`netechos/core.py:46-56`). Every node's drive then has a term `∞ · I[i][j] · sin D[i][j]` (`netechos/core.py:272-277`). That term is NaN when `I[i][j]` or the sine is 0, and `np.sum` and `np.clip` carry the NaN. So a node that met nobody becomes NaN, and with `β = 0` every node does (`0 · ∞`). The bound, the idle-node and the `β = 0` claims hold only where `pow` is finite: `α ≥ 0`, or no zero attitude when `α < 0`.
- NetEchos.UpdateAttitudesSinglePartner and NetEchos.AttitudesAtRest: they carry the same condition on `pow`.
- NetEchos.ConsensusPersists: it carries the same condition. An all-zero consensus with `α < 0` becomes NaN on the first tick in the source.
- NetEchos.Step, NetEchos.Next, NetEchos.TransitionKeepsBounds, NetEchos.StateAtInRange and NetEchos.RunSimulation: their attitude bound carries the same condition on `pow`.
- NetEchos.Create: the source's default arguments `α = -1` and `β = 0.001` are not modelled. Callers pass both.
- NetEchos.Next and Nim.Next: on inputs of mismatched sizes they return the state unchanged. No run produces such inputs, and the source would raise a NumPy shape error there.

=== FILE: matrices.dfy ===
/**
 Real matrices and vectors, and the element-wise operations both engines build
 on: clipping into a closed interval, thresholding a draw matrix against a
 probability matrix, symmetrising with the transpose, and turning a 0/1
 adjacency matrix into initial tie strengths.
 */
module Matrices {

  type Vector = seq<real>
  type Matrix = seq<seq<real>>

  /** `m` has `n` rows of `n` entries each. */
  predicate IsSquare(m: Matrix, n: nat) {
    |m| == n && forall i :: 0 <= i < n ==> |m[i]| == n
  }

  /** Every entry of the square matrix `m` is 0 or 1. */
  predicate IsBinary(m: Matrix) {
    IsSquare(m, |m|) &&
    forall i, j :: 0 <= i < |m| && 0 <= j < |m| ==> m[i][j] == 0.0 || m[i][j] == 1.0
  }

  /** `m` is square and equal to its transpose. */
  predicate IsSymmetric(m: Matrix) {
    IsSquare(m, |m|) &&
    forall i, j :: 0 <= i < |m| && 0 <= j < |m| ==> m[i][j] == m[j][i]
  }

  /** `m` is square with a zero diagonal (a graph without self-loops). */
  predicate ZeroDiagonal(m: Matrix) {
    IsSquare(m, |m|) && forall i :: 0 <= i < |m| ==> m[i][i] == 0.0
  }

  /** Every entry of the square matrix `m` lies in `[lo, hi]`. */
  predicate EntriesWithin(m: Matrix, lo: real, hi: real) {
    IsSquare(m, |m|) &&
    forall i, j :: 0 <= i < |m| && 0 <= j < |m| ==> lo <= m[i][j] <= hi
  }

  /** Every entry of `v` lies in `[lo, hi]`. */
  predicate Within(v: Vector, lo: real, hi: real) {
    forall k :: 0 <= k < |v| ==> lo <= v[k] <= hi
  }

  /** All entries of `v` are equal: every agent holds the same attitude. */
  predicate Consensus(v: Vector) {
    forall k :: 0 <= k < |v| ==> v[k] == v[0]
  }

  /** Row `i` of the interaction matrix is all zero: node `i` interacts with nobody. */
  predicate IdleRow(inter: Matrix, i: nat)
    requires IsSquare(inter, |inter|) && i < |inter|
  {
    forall j :: 0 <= j < |inter| ==> inter[i][j] == 0.0
  }

  function Abs(x: real): real {
    if x < 0.0 then -x else x
  }

  function Max(x: real, y: real): real {
    if x < y then y else x
  }

  /**
   `np.sqrt(x ** 2)` over the reals: a non-negative root of `x²`. The value
   is `|x|`, and SqrtOfSquare shows that no other value meets the contract.
   */
  function RootOfSquare(x: real): (s: real)
    ensures 0.0 <= s && s * s == x * x
  {
    Abs(x)
  }

  /** Squaring is strictly increasing on the non-negative reals. */
  lemma SquareMonotone(p: real, q: real)
    requires 0.0 <= p < q
    ensures p * p < q * q
  {
    calc {
      p * p;
    <= { assert p * (q - p) >= 0.0; }
      p * q;
    <  { assert (q - p) * q > 0.0; }
      q * q;
    }
  }

  /** `x²` has only one non-negative root, `|x|`. */
  lemma SqrtOfSquare(x: real, s: real)
    requires 0.0 <= s && s * s == x * x
    ensures s == Abs(x)
  {
    var m := Abs(x);
    assert m * m == x * x;
    if s < m {
      SquareMonotone(s, m);
    } else if m < s {
      SquareMonotone(m, s);
    }
  }

  /** `np.clip` of one value: the point of `[lo, hi]` nearest to `x`. */
  function Clip(x: real, lo: real, hi: real): (r: real)
    requires lo <= hi
    ensures lo <= r <= hi
    ensures lo <= x <= hi ==> r == x
    ensures x < lo ==> r == lo
    ensures hi < x ==> r == hi
  {
    if x < lo then lo else if hi < x then hi else x
  }

  /** `np.clip` of a vector. */
  function ClipVector(v: Vector, lo: real, hi: real): (r: Vector)
    requires lo <= hi
    ensures |r| == |v|
    ensures Within(r, lo, hi)
    ensures forall k :: 0 <= k < |v| && lo <= v[k] <= hi ==> r[k] == v[k]
    ensures forall k :: 0 <= k < |v| && v[k] < lo ==> r[k] == lo
    ensures forall k :: 0 <= k < |v| && hi < v[k] ==> r[k] == hi
    ensures Within(v, lo, hi) ==> r == v
  {
    seq(|v|, k requires 0 <= k < |v| => Clip(v[k], lo, hi))
  }

  /** Entry `k` of a clipped vector is entry `k` clipped. */
  lemma ClipVectorAt(v: Vector, lo: real, hi: real, k: nat)
    requires lo <= hi && k < |v|
    ensures ClipVector(v, lo, hi)[k] == Clip(v[k], lo, hi)
  {
  }

  /**
   `np.where(draws <= c, 1, 0)`: the interaction indicator obtained by comparing
   each uniform draw with the corresponding connection strength.
   */
  function Threshold(draws: Matrix, c: Matrix): (r: Matrix)
    requires IsSquare(c, |c|) && IsSquare(draws, |c|)
    ensures IsSquare(r, |c|) && IsBinary(r)
    ensures forall i, j :: 0 <= i < |c| && 0 <= j < |c| ==>
              (r[i][j] == 1.0 <==> draws[i][j] <= c[i][j])
  {
    seq(|c|, i requires 0 <= i < |c| =>
      seq(|c|, j requires 0 <= j < |c| => if draws[i][j] <= c[i][j] then 1.0 else 0.0))
  }

  /** `np.maximum(m, m.transpose())`. */
  function Symmetrize(m: Matrix): (r: Matrix)
    requires IsSquare(m, |m|)
    ensures IsSquare(r, |m|) && IsSymmetric(r)
    ensures forall i, j :: 0 <= i < |m| && 0 <= j < |m| ==>
              m[i][j] <= r[i][j] && m[j][i] <= r[i][j] &&
              (r[i][j] == m[i][j] || r[i][j] == m[j][i])
    ensures IsBinary(m) ==> IsBinary(r)
  {
    seq(|m|, i requires 0 <= i < |m| =>
      seq(|m|, j requires 0 <= j < |m| => Max(m[i][j], m[j][i])))
  }

  /** Symmetrising is idempotent: a matrix that already equals its transpose is left as it is. */
  lemma SymmetrizeFixesSymmetric(m: Matrix)
    requires IsSymmetric(m)
    ensures Symmetrize(m) == m
  {
    var r := Symmetrize(m);
    forall i | 0 <= i < |m|
      ensures r[i] == m[i]
    {
      assert forall j :: 0 <= j < |m| ==> r[i][j] == m[i][j];
    }
  }

  /**
   Initial tie strengths from an adjacency matrix: scale by `neighborWeight`,
   then overwrite every entry that is zero after scaling with
   `nonNeighborWeight`.
   */
  function WeightAdjacency(adj: Matrix, neighborWeight: real, nonNeighborWeight: real): (c: Matrix)
    requires IsSquare(adj, |adj|)
    ensures IsSquare(c, |adj|)
    ensures forall i, j :: 0 <= i < |adj| && 0 <= j < |adj| && neighborWeight * adj[i][j] != 0.0 ==>
              c[i][j] == neighborWeight * adj[i][j]
    ensures forall i, j :: 0 <= i < |adj| && 0 <= j < |adj| && neighborWeight * adj[i][j] == 0.0 ==>
              c[i][j] == nonNeighborWeight
  {
    seq(|adj|, i requires 0 <= i < |adj| =>
      seq(|adj|, j requires 0 <= j < |adj| =>
        var scaled := neighborWeight * adj[i][j];
        if scaled == 0.0 then nonNeighborWeight else scaled))
  }

  /**
   On a graph's 0/1 adjacency matrix with a non-zero neighbour weight, a tie is
   the neighbour weight on an edge and the non-neighbour weight elsewhere, so
   when the two weights differ an entry equals the neighbour weight exactly when
   the pair is an edge.
   */
  lemma WeightedGraphEntries(adj: Matrix, neighborWeight: real, nonNeighborWeight: real)
    requires IsBinary(adj) && neighborWeight != 0.0
    ensures var c := WeightAdjacency(adj, neighborWeight, nonNeighborWeight);
            forall i, j :: 0 <= i < |adj| && 0 <= j < |adj| ==>
              c[i][j] == (if adj[i][j] == 1.0 then neighborWeight else nonNeighborWeight)
    ensures var c := WeightAdjacency(adj, neighborWeight, nonNeighborWeight);
            neighborWeight != nonNeighborWeight ==>
              forall i, j :: 0 <= i < |adj| && 0 <= j < |adj| ==>
                (c[i][j] == neighborWeight <==> adj[i][j] == 1.0)
  {
    var c := WeightAdjacency(adj, neighborWeight, nonNeighborWeight);
    forall i, j | 0 <= i < |adj| && 0 <= j < |adj|
      ensures c[i][j] == (if adj[i][j] == 1.0 then neighborWeight else nonNeighborWeight)
    {
      if adj[i][j] == 1.0 {
        assert neighborWeight * adj[i][j] == neighborWeight;
      } else {
        assert adj[i][j] == 0.0;
        assert neighborWeight * adj[i][j] == 0.0;
      }
    }
  }
}

=== FILE: netechos.dfy ===
/**
 The vectorised engine `NetworkModel`: connection strengths `C` in [0, 1] and
 attitudes `A` in [-π/2, π/2] evolve through random pairwise interactions.
 Each tick recomputes the difference matrix, samples interactions, updates
 the connections with `clip(C + I ⊙ sin D, 0, 1)` and the attitudes with
 `clip(A + β Σ_j A[j]^α I[i][j] sin D[i][j], ±π/2)`, then appends one summary
 row and one tracker row per node.

 Sine and power are parameters (`sin`, `pow`) and the uniform draws arrive as
 matrices, so every step is a pure function of its inputs.
 */
module NetEchos {
  import opened Results
  import opened Matrices
  import opened Tables
  import opened Trajectory

  /**
   π/2 to the digits of the shortest decimal form of `np.pi / 2`. The proofs
   use only that it is positive.
   */
  const HalfPi: real := 1.5707963267948966

  const DefaultNeighborWeight: real := 1.0
  const DefaultNonNeighborWeight: real := 0.0

  /** The `ValueError`s the class raises, and the unbound-name error of an unknown distribution. */
  datatype Error =
    | InvalidInteractionType
    | InvalidNumberOfNodes
    | UnsupportedDistribution
    | InvalidTimeHorizon

  /** The constructor's parameters: node count, interaction type, exponent α and speed β. */
  datatype Config = Config(
    numberOfNodes: nat,
    interactionType: string,
    adjacencyExponent: real,
    attitudeChangeSpeed: real)

  /** The statistics of one summary row, computed outside the model. */
  datatype Summary = Summary(attitudeMean: real, attitudeSd: real, connectionMean: real, connectionSd: real)

  /** The matrices one tick produces. */
  datatype Tick = Tick(interactions: Matrix, connections: Matrix, attitudes: Vector)

  /** The state after `run_simulation`: final connections and attitudes and both tables. */
  datatype Run = Run(
    connections: Matrix,
    attitudes: Vector,
    summaryTable: seq<SummaryRow<Summary>>,
    attitudeTracker: seq<TrackerRow>)

  predicate IsInteractionType(s: string) {
    s == "symmetric" || s == "asymmetric"
  }

  predicate IsDistribution(s: string) {
    s == "normal" || s == "laplace" || s == "vonmises" || s == "uniform"
  }

  /** Attitudes within the half-turn `[-π/2, π/2]`. */
  predicate InRange(a: Vector) {
    Within(a, -HalfPi, HalfPi)
  }

  /**
   Construction validates the interaction type first and the node count second,
   and otherwise records the parameters. The source's defaults `α = -1` and
   `β = 0.001` are not modelled; callers pass both.
   */
  function Create(numberOfNodes: int, interactionType: string, alpha: real, beta: real): (r: Result<Config, Error>)
    ensures r.Ok? <==> IsInteractionType(interactionType) && 1 <= numberOfNodes
    ensures !IsInteractionType(interactionType) ==> r == Err(InvalidInteractionType)
    ensures IsInteractionType(interactionType) && numberOfNodes < 1 ==> r == Err(InvalidNumberOfNodes)
    ensures r.Ok? ==> r.value == Config(numberOfNodes, interactionType, alpha, beta)
  {
    if !IsInteractionType(interactionType) then Err(InvalidInteractionType)
    else if numberOfNodes < 1 then Err(InvalidNumberOfNodes)
    else Ok(Config(numberOfNodes, interactionType, alpha, beta))
  }

  /**
   Initial connections from the social network's adjacency matrix. A non-zero
   non-neighbour weight leaves no zero tie, so every pair can interact; without
   self-loops every diagonal entry is the non-neighbour weight.
   */
  function InitializeConnections(adj: Matrix, neighborWeight: real, nonNeighborWeight: real): (c: Matrix)
    requires IsSquare(adj, |adj|)
    ensures IsSquare(c, |adj|)
    ensures forall i, j :: 0 <= i < |adj| && 0 <= j < |adj| ==>
              c[i][j] == neighborWeight * adj[i][j] || c[i][j] == nonNeighborWeight
    ensures nonNeighborWeight != 0.0 ==>
              forall i, j :: 0 <= i < |adj| && 0 <= j < |adj| ==> c[i][j] != 0.0
    ensures ZeroDiagonal(adj) ==> forall i :: 0 <= i < |adj| ==> c[i][i] == nonNeighborWeight
  {
    WeightAdjacency(adj, neighborWeight, nonNeighborWeight)
  }

  /** With the default weights, a graph's connections are its adjacency matrix and lie in [0, 1]. */
  lemma DefaultConnectionsAreAdjacency(adj: Matrix)
    requires IsBinary(adj)
    ensures InitializeConnections(adj, DefaultNeighborWeight, DefaultNonNeighborWeight) == adj
    ensures EntriesWithin(InitializeConnections(adj, DefaultNeighborWeight, DefaultNonNeighborWeight), 0.0, 1.0)
  {
    var c := InitializeConnections(adj, DefaultNeighborWeight, DefaultNonNeighborWeight);
    WeightedGraphEntries(adj, DefaultNeighborWeight, DefaultNonNeighborWeight);
    forall i | 0 <= i < |adj|
      ensures c[i] == adj[i]
    {
      assert forall j :: 0 <= j < |adj| ==> c[i][j] == adj[i][j];
    }
  }

  /**
   Attitude initialisation from a sample vector drawn from the named
   distribution: every sample is clipped into [-π/2, π/2].
   */
  function InitializeAttitudes(distribution: string, samples: Vector): (r: Result<Vector, Error>)
    ensures r.Ok? <==> IsDistribution(distribution)
    ensures r.Err? ==> r.error == UnsupportedDistribution
    ensures r.Ok? ==> |r.value| == |samples| && InRange(r.value)
    ensures r.Ok? ==> forall k :: 0 <= k < |samples| && -HalfPi <= samples[k] <= HalfPi ==>
              r.value[k] == samples[k]
    ensures r.Ok? ==> forall k :: 0 <= k < |samples| && samples[k] < -HalfPi ==> r.value[k] == -HalfPi
    ensures r.Ok? ==> forall k :: 0 <= k < |samples| && HalfPi < samples[k] ==> r.value[k] == HalfPi
  {
    if IsDistribution(distribution) then Ok(ClipVector(samples, -HalfPi, HalfPi))
    else Err(UnsupportedDistribution)
  }

  /** Symmetric interactions: a pair interacts when either of its two draws fires. */
  function MakeSymmetricInteractions(draws: Matrix, c: Matrix): (inter: Matrix)
    requires IsSquare(c, |c|) && IsSquare(draws, |c|)
    ensures |inter| == |c| && IsBinary(inter) && IsSymmetric(inter)
    ensures forall i, j :: 0 <= i < |c| && 0 <= j < |c| ==>
              (inter[i][j] == 1.0 <==> draws[i][j] <= c[i][j] || draws[j][i] <= c[j][i])
  {
    Symmetrize(Threshold(draws, c))
  }

  /** Asymmetric interactions: `i` interacts with `j` exactly when the draw for `(i, j)` fires. */
  function MakeAsymmetricInteractions(draws: Matrix, c: Matrix): (inter: Matrix)
    requires IsSquare(c, |c|) && IsSquare(draws, |c|)
    ensures |inter| == |c| && IsBinary(inter)
    ensures forall i, j :: 0 <= i < |c| && 0 <= j < |c| ==> (inter[i][j] == 1.0 <==> draws[i][j] <= c[i][j])
  {
    Threshold(draws, c)
  }

  /** Dispatch on the interaction type; an unknown type is an error. */
  function MakeInteractions(cfg: Config, draws: Matrix, c: Matrix): (r: Result<Matrix, Error>)
    requires IsSquare(c, |c|) && IsSquare(draws, |c|)
    ensures r.Ok? <==> IsInteractionType(cfg.interactionType)
    ensures r.Err? ==> r.error == InvalidInteractionType
    ensures cfg.interactionType == "symmetric" ==> r == Ok(MakeSymmetricInteractions(draws, c))
    ensures cfg.interactionType == "asymmetric" ==> r == Ok(MakeAsymmetricInteractions(draws, c))
    ensures r.Ok? ==> |r.value| == |c| && IsBinary(r.value)
    ensures r.Ok? ==> forall i, j :: 0 <= i < |c| && 0 <= j < |c| && draws[i][j] <= c[i][j] ==>
              r.value[i][j] == 1.0
  {
    if cfg.interactionType == "symmetric" then Ok(MakeSymmetricInteractions(draws, c))
    else if cfg.interactionType == "asymmetric" then Ok(MakeAsymmetricInteractions(draws, c))
    else Err(InvalidInteractionType)
  }

  /** A validly constructed model never fails to sample interactions. */
  lemma CreatedModelInteracts(n: int, kind: string, alpha: real, beta: real, draws: Matrix, c: Matrix)
    requires Create(n, kind, alpha, beta).Ok?
    requires IsSquare(c, |c|) && IsSquare(draws, |c|)
    ensures MakeInteractions(Create(n, kind, alpha, beta).value, draws, c).Ok?
  {
  }

  /**
   The broadcast `A - Aᵀ` of the attitude row: entry `(i, j)` is `A[j] - A[i]`,
   so the diagonal is zero, the matrix is antisymmetric, and for in-range
   attitudes every entry lies within ±π.
   */
  function DifferenceMatrix(a: Vector): (d: Matrix)
    ensures IsSquare(d, |a|)
    ensures forall i, j :: 0 <= i < |a| && 0 <= j < |a| ==> d[i][j] == a[j] - a[i]
    ensures forall i :: 0 <= i < |a| ==> d[i][i] == 0.0
    ensures forall i, j :: 0 <= i < |a| && 0 <= j < |a| ==> d[i][j] == -d[j][i]
    ensures InRange(a) ==> EntriesWithin(d, -2.0 * HalfPi, 2.0 * HalfPi)
  {
    seq(|a|, i requires 0 <= i < |a| => seq(|a|, j requires 0 <= j < |a| => a[j] - a[i]))
  }

  /**
   `clip(C + I ⊙ sin D, 0, 1)`: every new strength lies in [0, 1]; a pair that
   did not interact keeps its strength up to clipping (exactly, if it was in
   range); a pair that did moves by `sin D[i][j]`.
   */
  function UpdateConnections(c: Matrix, inter: Matrix, d: Matrix, sin: real -> real): (r: Matrix)
    requires IsSquare(c, |c|) && IsSquare(inter, |c|) && IsSquare(d, |c|)
    ensures IsSquare(r, |c|) && EntriesWithin(r, 0.0, 1.0)
    ensures forall i, j :: 0 <= i < |c| && 0 <= j < |c| && inter[i][j] == 0.0 ==>
              r[i][j] == Clip(c[i][j], 0.0, 1.0)
    ensures forall i, j :: 0 <= i < |c| && 0 <= j < |c| && inter[i][j] == 0.0 && 0.0 <= c[i][j] <= 1.0 ==>
              r[i][j] == c[i][j]
    ensures forall i, j :: 0 <= i < |c| && 0 <= j < |c| && inter[i][j] == 1.0 ==>
              r[i][j] == Clip(c[i][j] + sin(d[i][j]), 0.0, 1.0)
  {
    seq(|c|, i requires 0 <= i < |c| =>
      seq(|c|, j requires 0 <= j < |c| => Reinforce(c[i][j], inter[i][j], sin(d[i][j]))))
  }

  /** One cell of the connection update: a strength moved by an interaction-gated drive, clipped to [0, 1]. */
  function Reinforce(strength: real, interacted: real, drive: real): (r: real)
    ensures 0.0 <= r <= 1.0
    ensures interacted == 0.0 ==> r == Clip(strength, 0.0, 1.0)
    ensures interacted == 1.0 ==> r == Clip(strength + drive, 0.0, 1.0)
  {
    Clip(strength + interacted * drive, 0.0, 1.0)
  }

  /** The pull of partner `j` on node `i` before gating by the interaction: `A[j]^α · sin D[i][j]`. */
  function Pull(a: Vector, d: Matrix, alpha: real, sin: real -> real, pow: (real, real) -> real, i: nat, j: nat): real
    requires IsSquare(d, |a|) && i < |a| && j < |a|
  {
    pow(a[j], alpha) * sin(d[i][j])
  }

  /**
   Row `i` of the attitude drive, `Σ_{k ≥ j} A[k]^α · I[i][k] · sin D[i][k]`.
   The power is taken on the partner's attitude, as the row-vector broadcast
   of `A ** α` against `I` gives.
   */
  function RowSum(a: Vector, inter: Matrix, d: Matrix, alpha: real, sin: real -> real,
                  pow: (real, real) -> real, i: nat, j: nat): (s: real)
    requires IsSquare(inter, |a|) && IsSquare(d, |a|) && i < |a| && j <= |a|
    ensures (forall k :: j <= k < |a| ==> inter[i][k] == 0.0) ==> s == 0.0
    ensures (forall k :: j <= k < |a| ==> sin(d[i][k]) == 0.0) ==> s == 0.0
    decreases |a| - j
  {
    if j == |a| then 0.0
    else pow(a[j], alpha) * inter[i][j] * sin(d[i][j]) + RowSum(a, inter, d, alpha, sin, pow, i, j + 1)
  }

  /** One node's attitude `x` moved by `β` times its drive, `x + β · drive`, before clipping. */
  function Nudge(x: real, beta: real, drive: real): real {
    x + beta * drive
  }

  /** The attitudes before clipping: `A[i] + β · Σ_j A[j]^α I[i][j] sin D[i][j]` for every node. */
  function Moved(cfg: Config, a: Vector, inter: Matrix, d: Matrix,
                 sin: real -> real, pow: (real, real) -> real): (m: Vector)
    requires IsSquare(inter, |a|) && IsSquare(d, |a|)
    ensures |m| == |a|
    ensures forall i :: 0 <= i < |a| ==>
              m[i] == Nudge(a[i], cfg.attitudeChangeSpeed, RowSum(a, inter, d, cfg.adjacencyExponent, sin, pow, i, 0))
  {
    seq(|a|, i requires 0 <= i < |a| =>
      Nudge(a[i], cfg.attitudeChangeSpeed, RowSum(a, inter, d, cfg.adjacencyExponent, sin, pow, i, 0)))
  }

  /**
   `clip(A + β Σ_j A[j]^α I[i][j] sin D[i][j], ±π/2)`: attitudes stay in the
   half-turn; a node that interacted with nobody keeps its in-range attitude,
   and with β = 0 nothing in range moves.
   */
  function UpdateAttitudes(cfg: Config, a: Vector, inter: Matrix, d: Matrix,
                           sin: real -> real, pow: (real, real) -> real): (r: Vector)
    requires IsSquare(inter, |a|) && IsSquare(d, |a|)
    ensures |r| == |a| && InRange(r)
    ensures forall i :: 0 <= i < |a| && IdleRow(inter, i) && -HalfPi <= a[i] <= HalfPi ==> r[i] == a[i]
    ensures cfg.attitudeChangeSpeed == 0.0 && InRange(a) ==> r == a
  {
    ClipVector(Moved(cfg, a, inter, d, sin, pow), -HalfPi, HalfPi)
  }

  /**
   A row with one partner `p` from column `j` on sums to that partner's pull,
   `A[p]^α · sin D[i][p]`.
   */
  lemma {:induction false} RowSumSinglePartner(a: Vector, inter: Matrix, d: Matrix, alpha: real, sin: real -> real,
                                               pow: (real, real) -> real, i: nat, j: nat, p: nat)
    requires IsSquare(inter, |a|) && IsSquare(d, |a|) && i < |a| && j <= p < |a|
    requires inter[i][p] == 1.0
    requires forall k :: j <= k < |a| && k != p ==> inter[i][k] == 0.0
    ensures RowSum(a, inter, d, alpha, sin, pow, i, j) == Pull(a, d, alpha, sin, pow, i, p)
    decreases |a| - j
  {
    if j < p {
      RowSumSinglePartner(a, inter, d, alpha, sin, pow, i, j + 1, p);
      assert pow(a[j], alpha) * inter[i][j] * sin(d[i][j]) == 0.0;
    } else {
      assert RowSum(a, inter, d, alpha, sin, pow, i, p + 1) == 0.0;
    }
  }

  /** Node `i`'s new attitude is its old one plus `β` times its row of the drive, clipped into the half-turn. */
  lemma UpdateAttitudesAt(cfg: Config, a: Vector, inter: Matrix, d: Matrix,
                          sin: real -> real, pow: (real, real) -> real, i: nat)
    requires IsSquare(inter, |a|) && IsSquare(d, |a|) && i < |a|
    ensures UpdateAttitudes(cfg, a, inter, d, sin, pow)[i] ==
            Clip(Nudge(a[i], cfg.attitudeChangeSpeed, RowSum(a, inter, d, cfg.adjacencyExponent, sin, pow, i, 0)),
                 -HalfPi, HalfPi)
  {
    MovedAt(cfg, a, inter, d, sin, pow, i);
    ClipVectorAt(Moved(cfg, a, inter, d, sin, pow), -HalfPi, HalfPi, i);
  }

  /** Entry `i` of the attitudes before clipping. */
  lemma MovedAt(cfg: Config, a: Vector, inter: Matrix, d: Matrix,
                sin: real -> real, pow: (real, real) -> real, i: nat)
    requires IsSquare(inter, |a|) && IsSquare(d, |a|) && i < |a|
    ensures Moved(cfg, a, inter, d, sin, pow)[i] ==
            Nudge(a[i], cfg.attitudeChangeSpeed, RowSum(a, inter, d, cfg.adjacencyExponent, sin, pow, i, 0))
  {
  }

  /**
   A node that met exactly one partner `p` moves by `β` times that partner's
   pull and is clipped into the half-turn,
   `clip(A[i] + β · A[p]^α · sin(A[p] - A[i]), ±π/2)`: the power is taken on
   the partner's attitude and the sine of the partner's lead.
   */
  lemma UpdateAttitudesSinglePartner(cfg: Config, a: Vector, inter: Matrix, sin: real -> real,
                                     pow: (real, real) -> real, i: nat, p: nat)
    requires IsSquare(inter, |a|) && i < |a| && p < |a|
    requires inter[i][p] == 1.0
    requires forall k :: 0 <= k < |a| && k != p ==> inter[i][k] == 0.0
    ensures UpdateAttitudes(cfg, a, inter, DifferenceMatrix(a), sin, pow)[i] ==
            Clip(Nudge(a[i], cfg.attitudeChangeSpeed, pow(a[p], cfg.adjacencyExponent) * sin(a[p] - a[i])), -HalfPi, HalfPi)
  {
    SinglePartnerRowSum(a, inter, cfg.adjacencyExponent, sin, pow, i, p);
    UpdateAttitudesAt(cfg, a, inter, DifferenceMatrix(a), sin, pow, i);
  }

  /** With the difference matrix of the attitudes, a single-partner row sums to `A[p]^α · sin(A[p] - A[i])`. */
  lemma SinglePartnerRowSum(a: Vector, inter: Matrix, alpha: real, sin: real -> real,
                            pow: (real, real) -> real, i: nat, p: nat)
    requires IsSquare(inter, |a|) && i < |a| && p < |a|
    requires inter[i][p] == 1.0
    requires forall k :: 0 <= k < |a| && k != p ==> inter[i][k] == 0.0
    ensures RowSum(a, inter, DifferenceMatrix(a), alpha, sin, pow, i, 0) == pow(a[p], alpha) * sin(a[p] - a[i])
  {
    RowSumSinglePartner(a, inter, DifferenceMatrix(a), alpha, sin, pow, i, 0, p);
    PullOfLead(a, alpha, sin, pow, i, p);
  }

  /** On the difference matrix of the attitudes, the pull of `p` on `i` is `A[p]^α · sin(A[p] - A[i])`. */
  lemma PullOfLead(a: Vector, alpha: real, sin: real -> real, pow: (real, real) -> real, i: nat, p: nat)
    requires i < |a| && p < |a|
    ensures Pull(a, DifferenceMatrix(a), alpha, sin, pow, i, p) == pow(a[p], alpha) * sin(a[p] - a[i])
  {
  }

  /**
   One tick of the run loop: difference matrix, interactions, new connections,
   then new attitudes from the same interactions and differences. The
   interactions are symmetric in symmetric mode, and both bounds hold after
   the tick whatever the state before it.
   */
  function Step(cfg: Config, c: Matrix, a: Vector, draw: Matrix,
                sin: real -> real, pow: (real, real) -> real): (r: Result<Tick, Error>)
    requires IsSquare(c, |c|) && |a| == |c| && IsSquare(draw, |c|)
    ensures r.Ok? <==> IsInteractionType(cfg.interactionType)
    ensures r.Err? ==> r.error == InvalidInteractionType
    ensures r.Ok? ==> |r.value.interactions| == |c| && IsBinary(r.value.interactions)
    ensures r.Ok? && cfg.interactionType == "symmetric" ==> IsSymmetric(r.value.interactions)
    ensures r.Ok? ==> IsSquare(r.value.connections, |c|) && EntriesWithin(r.value.connections, 0.0, 1.0)
    ensures r.Ok? ==> |r.value.attitudes| == |c| && InRange(r.value.attitudes)
  {
    var d := DifferenceMatrix(a);
    match MakeInteractions(cfg, draw, c)
    case Err(e) => Err(e)
    case Ok(inter) =>
      Ok(Tick(inter, UpdateConnections(c, inter, d, sin), UpdateAttitudes(cfg, a, inter, d, sin, pow)))
  }

  /** When every `sin D[i][j]` is zero, in-range connections do not move. */
  lemma ConnectionsAtRest(c: Matrix, inter: Matrix, d: Matrix, sin: real -> real)
    requires IsSquare(c, |c|) && IsSquare(inter, |c|) && IsSquare(d, |c|)
    requires forall i, j :: 0 <= i < |c| && 0 <= j < |c| ==> sin(d[i][j]) == 0.0
    requires EntriesWithin(c, 0.0, 1.0)
    ensures UpdateConnections(c, inter, d, sin) == c
  {
    var c' := UpdateConnections(c, inter, d, sin);
    forall i | 0 <= i < |c|
      ensures c'[i] == c[i]
    {
      forall j | 0 <= j < |c|
        ensures c'[i][j] == c[i][j]
      {
        assert inter[i][j] * sin(d[i][j]) == 0.0;
      }
    }
  }

  /** When every `sin D[i][j]` is zero, in-range attitudes do not move. */
  lemma AttitudesAtRest(cfg: Config, a: Vector, inter: Matrix, d: Matrix,
                        sin: real -> real, pow: (real, real) -> real)
    requires IsSquare(inter, |a|) && IsSquare(d, |a|)
    requires forall i, j :: 0 <= i < |a| && 0 <= j < |a| ==> sin(d[i][j]) == 0.0
    requires InRange(a)
    ensures UpdateAttitudes(cfg, a, inter, d, sin, pow) == a
  {
    var moved := Moved(cfg, a, inter, d, sin, pow);
    forall i | 0 <= i < |a|
      ensures moved[i] == a[i]
    {
      assert RowSum(a, inter, d, cfg.adjacencyExponent, sin, pow, i, 0) == 0.0;
    }
    assert moved == a;
  }

  /**
   Equal attitudes are a fixed point: with `sin 0 = 0`, every difference and
   hence every increment vanishes, so in-range connections and attitudes come
   out of a tick unchanged whatever interactions are drawn.
   */
  lemma EqualAttitudesAreFixed(cfg: Config, c: Matrix, a: Vector, draw: Matrix,
                               sin: real -> real, pow: (real, real) -> real)
    requires IsSquare(c, |c|) && |a| == |c| && IsSquare(draw, |c|)
    requires IsInteractionType(cfg.interactionType)
    requires sin(0.0) == 0.0
    requires Consensus(a)
    requires InRange(a) && EntriesWithin(c, 0.0, 1.0)
    ensures Step(cfg, c, a, draw, sin, pow).Ok?
    ensures Step(cfg, c, a, draw, sin, pow).value.connections == c
    ensures Step(cfg, c, a, draw, sin, pow).value.attitudes == a
  {
    var d := DifferenceMatrix(a);
    var inter := MakeInteractions(cfg, draw, c).value;
    assert forall i, j :: 0 <= i < |a| && 0 <= j < |a| ==> sin(d[i][j]) == 0.0 by {
      forall i, j | 0 <= i < |a| && 0 <= j < |a|
        ensures sin(d[i][j]) == 0.0
      {
        assert d[i][j] == 0.0;
      }
    }
    ConnectionsAtRest(c, inter, d, sin);
    AttitudesAtRest(cfg, a, inter, d, sin, pow);
  }

  /** The inputs of a run: an `n`-node initial state and an `n × n` draw matrix per tick. */
  predicate RunInputs(cfg: Config, c0: Matrix, a0: Vector, draws: seq<Matrix>) {
    && IsSquare(c0, cfg.numberOfNodes) && |a0| == cfg.numberOfNodes
    && SizedDraws(draws, cfg.numberOfNodes)
  }

  /**
   One tick as a total map on states, the transition a run iterates. On the
   sizes a run keeps (an `n × n` matrix, `n` attitudes, an `n × n` draw) it is
   `Step`; any other input, which no run produces, is left as it is.
   */
  function Next(cfg: Config, sin: real -> real, pow: (real, real) -> real,
                c: Matrix, a: Vector, draw: Matrix): (r: (Matrix, Vector))
    ensures IsInteractionType(cfg.interactionType) && IsSquare(c, |c|) && |a| == |c| && IsSquare(draw, |c|) ==>
              IsSquare(r.0, |c|) && EntriesWithin(r.0, 0.0, 1.0) && |r.1| == |c| && InRange(r.1)
  {
    if IsInteractionType(cfg.interactionType) && IsSquare(c, |c|) && |a| == |c| && IsSquare(draw, |c|) then
      var tick := Step(cfg, c, a, draw, sin, pow).value;
      (tick.connections, tick.attitudes)
    else
      (c, a)
  }

  /** `Next` for one model, as a function value. */
  function Transition(cfg: Config, sin: real -> real, pow: (real, real) -> real): (Matrix, Vector, Matrix) -> (Matrix, Vector) {
    (c: Matrix, a: Vector, draw: Matrix) => Next(cfg, sin, pow, c, a, draw)
  }

  /**
   The reference tables after `t` ticks: tick `s` contributes one summary row
   and one tracker row per node, stamped `s`, describing the state after it.
   */
  function History(next: (Matrix, Vector, Matrix) -> (Matrix, Vector), c0: Matrix, a0: Vector,
                   draws: seq<Matrix>, summarize: (Matrix, Vector) -> Summary, t: nat): (r: Run)
    requires t <= |draws|
    ensures (r.connections, r.attitudes) == StateAt(next, c0, a0, draws, t)
    ensures |r.summaryTable| == t
  {
    if t == 0 then Run(c0, a0, [], [])
    else
      var prev := History(next, c0, a0, draws, summarize, t - 1);
      var st := StateAt(next, c0, a0, draws, t);
      Run(st.0, st.1,
          prev.summaryTable + [SummaryRow(t - 1, summarize(st.0, st.1))],
          prev.attitudeTracker + Rows(t - 1, st.1))
  }

  /**
   Summary row `s` of the reference tables holds the statistics of the state
   after tick `s`, and the `k`-th tracker row after the first `s` ticks' rows
   holds node `k`'s attitude in that state.
   */
  lemma {:induction false} HistoryRowAt(next: (Matrix, Vector, Matrix) -> (Matrix, Vector), c0: Matrix,
                                        a0: Vector, draws: seq<Matrix>,
                                        summarize: (Matrix, Vector) -> Summary, t: nat, s: nat, k: nat)
    requires t <= |draws| && s < t && k < |StateAt(next, c0, a0, draws, s + 1).1|
    ensures var st := StateAt(next, c0, a0, draws, s + 1);
            var h := History(next, c0, a0, draws, summarize, t);
            var base := |History(next, c0, a0, draws, summarize, s).attitudeTracker|;
            && h.summaryTable[s] == SummaryRow(s, summarize(st.0, st.1))
            && base + k < |h.attitudeTracker|
            && h.attitudeTracker[base + k] == TrackerRow(s, k, st.1[k])
  {
    var h := History(next, c0, a0, draws, summarize, t);
    var prev := History(next, c0, a0, draws, summarize, t - 1);
    assert h.attitudeTracker == prev.attitudeTracker + Rows(t - 1, h.attitudes);
    if s < t - 1 {
      HistoryRowAt(next, c0, a0, draws, summarize, t - 1, s, k);
      assert h.summaryTable[s] == prev.summaryTable[s];
    }
  }

  /** A tick of the model keeps the bounds. */
  lemma TransitionKeepsBounds(cfg: Config, sin: real -> real, pow: (real, real) -> real, n: nat)
    requires IsInteractionType(cfg.interactionType)
    ensures KeepsBounds(Transition(cfg, sin, pow), n, 0.0, 1.0, -HalfPi, HalfPi)
  {
    forall c: Matrix, a: Vector, draw: Matrix | Sized((c, a), n) && IsSquare(draw, n)
      ensures Bounded(Transition(cfg, sin, pow)(c, a, draw), n, 0.0, 1.0, -HalfPi, HalfPi)
    {
      assert Transition(cfg, sin, pow)(c, a, draw) == Next(cfg, sin, pow, c, a, draw);
    }
  }

  /** Along a run's trajectory every state keeps the model's sizes, and after a tick its bounds. */
  lemma StateAtInRange(cfg: Config, c0: Matrix, a0: Vector, draws: seq<Matrix>,
                       sin: real -> real, pow: (real, real) -> real, t: nat)
    requires IsInteractionType(cfg.interactionType) && RunInputs(cfg, c0, a0, draws) && t <= |draws|
    ensures var st := StateAt(Transition(cfg, sin, pow), c0, a0, draws, t);
            && IsSquare(st.0, cfg.numberOfNodes) && |st.1| == cfg.numberOfNodes
            && (0 < t ==> EntriesWithin(st.0, 0.0, 1.0) && InRange(st.1))
  {
    TransitionKeepsBounds(cfg, sin, pow, cfg.numberOfNodes);
    TrajectoryBounded(Transition(cfg, sin, pow), cfg.numberOfNodes, 0.0, 1.0, -HalfPi, HalfPi, c0, a0, draws, t);
  }

  /** Under a transition that keeps `n` nodes, the reference tracker holds `n` rows per tick. */
  lemma {:induction false} HistoryLength(next: (Matrix, Vector, Matrix) -> (Matrix, Vector), n: nat,
                                         c0: Matrix, a0: Vector, draws: seq<Matrix>,
                                         summarize: (Matrix, Vector) -> Summary, t: nat)
    requires KeepsBounds(next, n, 0.0, 1.0, -HalfPi, HalfPi) && Sized((c0, a0), n)
    requires SizedDraws(draws, n) && t <= |draws|
    ensures |History(next, c0, a0, draws, summarize, t).attitudeTracker| == n * t
  {
    if 0 < t {
      HistoryLength(next, n, c0, a0, draws, summarize, t - 1);
      TrajectoryBounded(next, n, 0.0, 1.0, -HalfPi, HalfPi, c0, a0, draws, t);
      MulStep(n, t - 1);
    }
  }

  /**
   Agreement persists: from equal in-range attitudes and in-range connections,
   and with `sin 0 = 0`, the state after every tick is the initial state.
   */
  lemma ConsensusPersists(cfg: Config, c0: Matrix, a0: Vector, draws: seq<Matrix>,
                          sin: real -> real, pow: (real, real) -> real, t: nat)
    requires IsInteractionType(cfg.interactionType) && RunInputs(cfg, c0, a0, draws) && t <= |draws|
    requires sin(0.0) == 0.0 && Consensus(a0) && InRange(a0) && EntriesWithin(c0, 0.0, 1.0)
    ensures StateAt(Transition(cfg, sin, pow), c0, a0, draws, t) == (c0, a0)
  {
    var next := Transition(cfg, sin, pow);
    forall s | 0 <= s < t
      ensures next(c0, a0, draws[s]) == (c0, a0)
    {
      EqualAttitudesAreFixed(cfg, c0, a0, draws[s], sin, pow);
      assert next(c0, a0, draws[s]) == Next(cfg, sin, pow, c0, a0, draws[s]);
    }
    FixedPointPersists(next, c0, a0, draws, t);
  }

  /** One loop iteration on the reference tables of `t` ticks yields those of `t + 1` ticks. */
  lemma AdvanceFollowsHistory(cfg: Config, c0: Matrix, a0: Vector, draws: seq<Matrix>, sin: real -> real,
                              pow: (real, real) -> real, summarize: (Matrix, Vector) -> Summary,
                              st: Run, t: nat)
    requires IsInteractionType(cfg.interactionType) && RunInputs(cfg, c0, a0, draws) && t < |draws|
    requires Recorded(st, cfg.numberOfNodes, t, summarize)
    requires st == History(Transition(cfg, sin, pow), c0, a0, draws, summarize, t)
    ensures Advance(cfg, st, t, draws[t], sin, pow, summarize) ==
            Ok(History(Transition(cfg, sin, pow), c0, a0, draws, summarize, t + 1))
  {
    var next := Advance(cfg, st, t, draws[t], sin, pow, summarize).value;
    var h := History(Transition(cfg, sin, pow), c0, a0, draws, summarize, t + 1);
    assert (h.connections, h.attitudes) == Next(cfg, sin, pow, st.connections, st.attitudes, draws[t]);
    assert next.summaryTable == h.summaryTable;
    assert next.attitudeTracker == h.attitudeTracker;
  }

  /** Appending one time's rows keeps the tracker on schedule and every recorded attitude in range. */
  function RecordAttitudes(tracker: seq<TrackerRow>, n: nat, t: nat, a: Vector): (r: seq<TrackerRow>)
    requires Stamps(tracker) == Schedule(n, t) && |a| == n && InRange(a)
    requires forall k :: 0 <= k < |tracker| ==> -HalfPi <= tracker[k].attitude <= HalfPi
    ensures Stamps(r) == Schedule(n, t + 1)
    ensures forall k :: 0 <= k < |r| ==> -HalfPi <= r[k].attitude <= HalfPi
    ensures |r| >= n && r[|r| - n..] == Rows(t, a)
  {
    StampsOfAppend(tracker, t, a);
    AppendTracker(tracker, t, a)
  }

  /**
   The state of a run after `t` ticks of an `n`-node model: one summary row
   per tick stamped with its tick, `n` tracker rows per tick in schedule
   order, every recorded attitude in range, and, once a tick has run, the
   state within its bounds and described by the last rows of both tables.
   */
  predicate Recorded(st: Run, n: nat, t: nat, summarize: (Matrix, Vector) -> Summary) {
    && IsSquare(st.connections, n) && |st.attitudes| == n
    && |st.summaryTable| == t
    && (forall s :: 0 <= s < t ==> st.summaryTable[s].time == s)
    && Stamps(st.attitudeTracker) == Schedule(n, t)
    && (forall k :: 0 <= k < |st.attitudeTracker| ==> -HalfPi <= st.attitudeTracker[k].attitude <= HalfPi)
    && (0 < t ==> EntriesWithin(st.connections, 0.0, 1.0) && InRange(st.attitudes))
    && (0 < t ==> st.summaryTable[t - 1] == SummaryRow(t - 1, summarize(st.connections, st.attitudes)))
    && (0 < t ==> |st.attitudeTracker| >= n &&
                  st.attitudeTracker[|st.attitudeTracker| - n..] == Rows(t - 1, st.attitudes))
  }

  /** Tick `t` of the run loop followed by its two table appends. */
  function Advance(cfg: Config, st: Run, t: nat, draw: Matrix, sin: real -> real,
                   pow: (real, real) -> real, summarize: (Matrix, Vector) -> Summary): (r: Result<Run, Error>)
    requires Recorded(st, cfg.numberOfNodes, t, summarize) && IsSquare(draw, cfg.numberOfNodes)
    ensures r.Ok? <==> IsInteractionType(cfg.interactionType)
    ensures r.Err? ==> r.error == InvalidInteractionType
    ensures r.Ok? ==> Recorded(r.value, cfg.numberOfNodes, t + 1, summarize)
  {
    match Step(cfg, st.connections, st.attitudes, draw, sin, pow)
    case Err(e) => Err(e)
    case Ok(tick) =>
      var summary := AppendSummary(st.summaryTable, t, summarize(tick.connections, tick.attitudes));
      var tracker := RecordAttitudes(st.attitudeTracker, cfg.numberOfNodes, t, tick.attitudes);
      Ok(Run(tick.connections, tick.attitudes, summary, tracker))
  }

  /**
   `run_simulation`: reject `tmax < 1`, start from empty tables and run `tmax`
   ticks, appending after tick `t` one summary row and `n` tracker rows, all
   stamped `t`. The tables end with `tmax` and `n · tmax` rows, the last rows
   describe the final state, and every recorded attitude is in range.
   */
  method RunSimulation(cfg: Config, c0: Matrix, a0: Vector, tmax: int, draws: seq<Matrix>,
                       sin: real -> real, pow: (real, real) -> real,
                       summarize: (Matrix, Vector) -> Summary)
    returns (r: Result<Run, Error>)
    requires RunInputs(cfg, c0, a0, draws) && tmax <= |draws|
    ensures tmax < 1 ==> r == Err(InvalidTimeHorizon)
    ensures r.Ok? ==> IsInteractionType(cfg.interactionType) && 1 <= tmax &&
                      r.value == History(Transition(cfg, sin, pow), c0, a0, draws, summarize, tmax)
    ensures 1 <= tmax ==> (r.Ok? <==> IsInteractionType(cfg.interactionType))
    ensures 1 <= tmax && r.Err? ==> r.error == InvalidInteractionType
    ensures r.Ok? ==> |r.value.summaryTable| == tmax
    ensures r.Ok? ==> forall t :: 0 <= t < tmax ==> r.value.summaryTable[t].time == t
    ensures r.Ok? ==> Stamps(r.value.attitudeTracker) == Schedule(cfg.numberOfNodes, tmax)
    ensures r.Ok? ==> |r.value.attitudeTracker| == cfg.numberOfNodes * tmax
    ensures r.Ok? ==> forall k :: 0 <= k < |r.value.attitudeTracker| ==>
              -HalfPi <= r.value.attitudeTracker[k].attitude <= HalfPi
    ensures r.Ok? ==> IsSquare(r.value.connections, cfg.numberOfNodes) &&
                      EntriesWithin(r.value.connections, 0.0, 1.0)
    ensures r.Ok? ==> |r.value.attitudes| == cfg.numberOfNodes && InRange(r.value.attitudes)
    ensures r.Ok? ==> r.value.summaryTable[tmax - 1] ==
                      SummaryRow(tmax - 1, summarize(r.value.connections, r.value.attitudes))
    ensures r.Ok? ==> r.value.attitudeTracker[|r.value.attitudeTracker| - cfg.numberOfNodes..] ==
                      Rows(tmax - 1, r.value.attitudes)
  {
    if tmax < 1 {
      return Err(InvalidTimeHorizon);
    }
    var st := Run(c0, a0, [], []);
    var t := 0;
    while t < tmax
      invariant 0 <= t <= tmax
      invariant Recorded(st, cfg.numberOfNodes, t, summarize)
      invariant 0 < t ==> IsInteractionType(cfg.interactionType)
      invariant IsInteractionType(cfg.interactionType) ==>
                  st == History(Transition(cfg, sin, pow), c0, a0, draws, summarize, t)
    {
      var next := Advance(cfg, st, t, draws[t], sin, pow, summarize);
      if next.Err? {
        return Err(next.error);
      }
      AdvanceFollowsHistory(cfg, c0, a0, draws, sin, pow, summarize, st, t);
      st := next.value;
      t := t + 1;
    }
    ScheduleLength(cfg.numberOfNodes, tmax);
    r := Ok(st);
  }
}

=== FILE: nim.dfy ===
/**
 The older pairwise-loop engine. Tie strengths are clamped to [1e-20, 1] and
 attitudes to [-1, 1]; the update rules use only absolute values, signs and
 one division, so they are exact over the reals. The edge update is a
 cell-by-cell map; the attitude update is a sequential in-place fold over
 the pairs `(i, j)` in row-major order, each term seeing the attitudes as the
 earlier terms left them.
 */
module Nim {
  import opened Results
  import opened Matrices
  import opened Tables
  import opened Trajectory

  /** The floor `1e-20` below which an edge weight is raised. */
  const EdgeFloor: real := 0.00000000000000000001

  /** The assertion failures the module raises for an unsupported name. */
  datatype Error = UnsupportedDistribution | UnsupportedMethod

  /** The edge-update rules `"type1"` .. `"type3"`. */
  datatype EdgeRule = EdgeType1 | EdgeType2 | EdgeType3

  /** The attitude-update rules `"type1"` .. `"type4"`. */
  datatype AttitudeRule = AttitudeType1 | AttitudeType2 | AttitudeType3 | AttitudeType4

  /** The statistics of one summary row, computed outside the model. */
  datatype Summary = Summary(
    edgeWeightMean: real, edgeWeightMedian: real, edgeWeightSd: real,
    attitudeMean: real, attitudeMedian: real, attitudeSd: real)

  /** The state `run_model` ends in: final edges and attitudes and both tables. */
  datatype Run = Run(
    edges: Matrix,
    attitudes: Vector,
    attitudeTracker: seq<TrackerRow>,
    simSummary: seq<SummaryRow<Summary>>)

  /** `np.sign`: the unit of `x`, with `x · sign x = |x|`. */
  function Sign(x: real): (r: real)
    ensures x * r == Abs(x)
    ensures -1.0 <= r <= 1.0
    ensures r == 0.0 <==> x == 0.0
  {
    if 0.0 < x then 1.0 else if x < 0.0 then -1.0 else 0.0
  }

  /** No entry of the square matrix is zero, so every entry can be divided by. */
  predicate NoZeroEntry(c: Matrix) {
    IsSquare(c, |c|) && forall i, j :: 0 <= i < |c| && 0 <= j < |c| ==> c[i][j] != 0.0
  }

  function EdgeRuleOf(name: string): (r: Result<EdgeRule, Error>)
    ensures r.Ok? <==> name == "type1" || name == "type2" || name == "type3"
    ensures r.Err? ==> r.error == UnsupportedMethod
    ensures name == "type1" ==> r == Ok(EdgeType1)
    ensures name == "type2" ==> r == Ok(EdgeType2)
    ensures name == "type3" ==> r == Ok(EdgeType3)
  {
    if name == "type1" then Ok(EdgeType1)
    else if name == "type2" then Ok(EdgeType2)
    else if name == "type3" then Ok(EdgeType3)
    else Err(UnsupportedMethod)
  }

  function AttitudeRuleOf(name: string): (r: Result<AttitudeRule, Error>)
    ensures r.Ok? <==> name == "type1" || name == "type2" || name == "type3" || name == "type4"
    ensures r.Err? ==> r.error == UnsupportedMethod
    ensures name == "type1" ==> r == Ok(AttitudeType1)
    ensures name == "type2" ==> r == Ok(AttitudeType2)
    ensures name == "type3" ==> r == Ok(AttitudeType3)
    ensures name == "type4" ==> r == Ok(AttitudeType4)
  {
    if name == "type1" then Ok(AttitudeType1)
    else if name == "type2" then Ok(AttitudeType2)
    else if name == "type3" then Ok(AttitudeType3)
    else if name == "type4" then Ok(AttitudeType4)
    else Err(UnsupportedMethod)
  }

  /**
   Attitudes from a sample vector: only the normal distribution is accepted,
   and every sample is clamped into [-1, 1].
   */
  function InitializeAttitudes(distribution: string, samples: Vector): (r: Result<Vector, Error>)
    ensures r.Ok? <==> distribution == "normal"
    ensures r.Err? ==> r.error == UnsupportedDistribution
    ensures r.Ok? ==> |r.value| == |samples| && Within(r.value, -1.0, 1.0)
    ensures r.Ok? ==> forall k :: 0 <= k < |samples| && -1.0 <= samples[k] <= 1.0 ==> r.value[k] == samples[k]
    ensures r.Ok? ==> forall k :: 0 <= k < |samples| && samples[k] < -1.0 ==> r.value[k] == -1.0
    ensures r.Ok? ==> forall k :: 0 <= k < |samples| && 1.0 < samples[k] ==> r.value[k] == 1.0
  {
    if distribution == "normal" then Ok(ClipVector(samples, -1.0, 1.0))
    else Err(UnsupportedDistribution)
  }

  /**
   Initial edge weights of a graph: on a 0/1 adjacency matrix with a non-zero
   neighbour weight, an edge gets the neighbour weight and every other pair,
   the diagonal included, the non-neighbour weight.
   */
  function InitializeEdges(adj: Matrix, neighborWeight: real, nonNeighborWeight: real): (c: Matrix)
    requires IsSquare(adj, |adj|)
    ensures IsSquare(c, |adj|)
    ensures IsBinary(adj) && neighborWeight != 0.0 ==>
              forall i, j :: 0 <= i < |adj| && 0 <= j < |adj| ==>
                c[i][j] == (if adj[i][j] == 1.0 then neighborWeight else nonNeighborWeight)
  {
    WeightAdjacency(adj, neighborWeight, nonNeighborWeight)
  }

  /**
   Interactions from uniform draws: `(i, j)` fires when its draw is at most the
   edge weight; with `reciprocate` a pair interacts when either direction
   fires, and the matrix is symmetric.
   */
  function MakeInteractions(c: Matrix, draws: Matrix, reciprocate: bool): (inter: Matrix)
    requires IsSquare(c, |c|) && IsSquare(draws, |c|)
    ensures |inter| == |c| && IsBinary(inter)
    ensures reciprocate ==> IsSymmetric(inter)
    ensures reciprocate ==> forall i, j :: 0 <= i < |c| && 0 <= j < |c| ==>
              (inter[i][j] == 1.0 <==> draws[i][j] <= c[i][j] || draws[j][i] <= c[j][i])
    ensures !reciprocate ==> forall i, j :: 0 <= i < |c| && 0 <= j < |c| ==>
              (inter[i][j] == 1.0 <==> draws[i][j] <= c[i][j])
  {
    var fired := Threshold(draws, c);
    if reciprocate then Symmetrize(fired) else fired
  }

  /**
   The change of one edge weight. It vanishes when the pair did not interact,
   and on the diagonal (`|a| - |a| = 0`, `|a - a| = 0`) for every rule, so the
   loop's no-op `next` on `i == j` changes nothing.
   */
  function EdgeDelta(rule: EdgeRule, interacted: real, ai: real, aj: real): (r: real)
    ensures interacted == 0.0 ==> r == 0.0
    ensures ai == aj ==> r == 0.0
  {
    match rule
    case EdgeType1 => interacted * (Abs(ai) - Abs(aj)) * Sign(ai * aj)
    case EdgeType2 => interacted * (Abs(ai) - Abs(aj)) * Sign(ai + aj)
    case EdgeType3 => interacted * RootOfSquare(ai - aj) * Sign(ai * aj)
  }

  /**
   Swapping the pair: rules type1 and type2 compare `|a_i|` with `|a_j|`, so
   the change of `(i, j)` is minus that of `(j, i)`; rule type3 depends only
   on the distance and the product, so both directions change alike.
   */
  lemma EdgeDeltaSwap(rule: EdgeRule, interacted: real, ai: real, aj: real)
    ensures rule != EdgeType3 ==> EdgeDelta(rule, interacted, ai, aj) == -EdgeDelta(rule, interacted, aj, ai)
    ensures rule == EdgeType3 ==> EdgeDelta(rule, interacted, ai, aj) == EdgeDelta(rule, interacted, aj, ai)
  {
    assert ai * aj == aj * ai;
    assert ai + aj == aj + ai;
    if rule == EdgeType3 {
      SqrtOfSquare(aj - ai, RootOfSquare(ai - aj));
    }
  }

  /** One cell of the edge update: the weight moved by its change, clamped to `[1e-20, 1]`. */
  function EdgeCell(rule: EdgeRule, w: real, interacted: real, ai: real, aj: real): (r: real)
    ensures EdgeFloor <= r <= 1.0 && r != 0.0
    ensures interacted == 0.0 || ai == aj ==> r == Clip(w, EdgeFloor, 1.0)
  {
    Clip(w + EdgeDelta(rule, interacted, ai, aj), EdgeFloor, 1.0)
  }

  /**
   The edge update under a fixed rule. Each cell reads only its own weight and
   the (unchanged) attitudes, so the in-place loop is a cell-wise map. Every
   result lies in [1e-20, 1], hence none is zero; a pair that did not interact,
   and every diagonal cell, is only clamped.
   */
  function UpdateEdgesWith(c: Matrix, inter: Matrix, a: Vector, rule: EdgeRule): (r: Matrix)
    requires IsSquare(c, |a|) && IsSquare(inter, |a|)
    ensures IsSquare(r, |a|) && EntriesWithin(r, EdgeFloor, 1.0) && NoZeroEntry(r)
    ensures forall i, j :: 0 <= i < |a| && 0 <= j < |a| && inter[i][j] == 0.0 ==>
              r[i][j] == Clip(c[i][j], EdgeFloor, 1.0)
    ensures forall i :: 0 <= i < |a| ==> r[i][i] == Clip(c[i][i], EdgeFloor, 1.0)
    ensures forall i, j :: 0 <= i < |a| && 0 <= j < |a| && inter[i][j] == 0.0 && EdgeFloor <= c[i][j] <= 1.0 ==>
              r[i][j] == c[i][j]
    ensures forall i, j :: 0 <= i < |a| && 0 <= j < |a| ==>
              r[i][j] == Clip(c[i][j] + EdgeDelta(rule, inter[i][j], a[i], a[j]), EdgeFloor, 1.0)
  {
    seq(|a|, i requires 0 <= i < |a| =>
      seq(|a|, j requires 0 <= j < |a| => EdgeCell(rule, c[i][j], inter[i][j], a[i], a[j])))
  }

  /** `update_edges`: an unsupported method name is an error; otherwise the update of its rule. */
  function UpdateEdges(c: Matrix, inter: Matrix, a: Vector, name: string): (r: Result<Matrix, Error>)
    requires IsSquare(c, |a|) && IsSquare(inter, |a|)
    ensures r.Ok? <==> name == "type1" || name == "type2" || name == "type3"
    ensures r.Err? ==> r.error == UnsupportedMethod
    ensures r.Ok? ==> IsSquare(r.value, |a|) && EntriesWithin(r.value, EdgeFloor, 1.0) && NoZeroEntry(r.value)
    ensures r.Ok? ==> forall i :: 0 <= i < |a| ==> r.value[i][i] == Clip(c[i][i], EdgeFloor, 1.0)
    ensures r.Ok? ==> forall i, j :: 0 <= i < |a| && 0 <= j < |a| && inter[i][j] == 0.0 ==>
              r.value[i][j] == Clip(c[i][j], EdgeFloor, 1.0)
    ensures r.Ok? ==> forall i, j :: 0 <= i < |a| && 0 <= j < |a| ==>
              r.value[i][j] == Clip(c[i][j] + EdgeDelta(EdgeRuleOf(name).value, inter[i][j], a[i], a[j]), EdgeFloor, 1.0)
  {
    match EdgeRuleOf(name)
    case Err(e) => Err(e)
    case Ok(rule) => Ok(UpdateEdgesWith(c, inter, a, rule))
  }

  /**
   The weights `update_edges` returns are at least 1e-20, so the dividing
   attitude rule type2 can always run on them.
   */
  lemma EdgesAdmitDividingRule(c: Matrix, inter: Matrix, a: Vector, rule: EdgeRule, inter': Matrix)
    requires IsSquare(c, |a|) && IsSquare(inter, |a|) && IsSquare(inter', |a|)
    ensures Admissible(AttitudeType2, UpdateEdgesWith(c, inter, a, rule), inter', a)
  {
  }

  /**
   With the default non-neighbour weight 0, the edges `initialize_edges` builds
   on a graph without self-loops are zero on the diagonal, so the dividing
   rule type2 cannot run on them: the source's self term there is `0 / 0`.
   */
  lemma InitialEdgesBarDividingRule(adj: Matrix, neighborWeight: real, inter: Matrix, a: Vector)
    requires IsSquare(adj, |adj|) && IsBinary(adj) && neighborWeight != 0.0
    requires forall i :: 0 <= i < |adj| ==> adj[i][i] == 0.0
    requires |a| == |adj| && 1 <= |a| && IsSquare(inter, |a|)
    ensures forall i :: 0 <= i < |a| ==> InitializeEdges(adj, neighborWeight, 0.0)[i][i] == 0.0
    ensures !Admissible(AttitudeType2, InitializeEdges(adj, neighborWeight, 0.0), inter, a)
  {
    assert InitializeEdges(adj, neighborWeight, 0.0)[0][0] == 0.0;
  }

  /** The inputs an attitude rule can run on: the dividing rule needs no zero weight. */
  predicate Admissible(rule: AttitudeRule, c: Matrix, inter: Matrix, a: Vector) {
    IsSquare(c, |a|) && IsSquare(inter, |a|) && (rule == AttitudeType2 ==> NoZeroEntry(c))
  }

  /**
   The term of pair `(i, j)` in the current attitudes `a`. It vanishes when the
   pair did not interact and for the self pair, whose distance is zero.
   */
  function AttitudeDelta(rule: AttitudeRule, c: Matrix, inter: Matrix, a: Vector, i: nat, j: nat): (r: real)
    requires Admissible(rule, c, inter, a) && i < |a| && j < |a|
    ensures inter[i][j] == 0.0 ==> r == 0.0
    ensures i == j ==> r == 0.0
    ensures a[i] == a[j] ==> r == 0.0
  {
    match rule
    case AttitudeType1 => (inter[i][j] * c[i][j]) * Abs(a[i] - a[j]) * Sign(a[i] + a[j])
    case AttitudeType2 => (inter[i][j] / c[i][j]) * Abs(a[i] - a[j]) * Sign(a[i] + a[j])
    case AttitudeType3 => (inter[i][j] * c[i][j]) * Abs(a[i] - a[j]) * Sign(a[i] * a[j])
    case AttitudeType4 => (inter[i][j] * c[i][j]) * RootOfSquare(a[i] - a[j]) * Sign(a[i] * a[j])
  }

  /**
   The dividing rule type2 is type1 with the weight moved to the denominator:
   scaled by the squared weight, its term is the type1 term.
   */
  lemma DividingRuleScalesType1(c: Matrix, inter: Matrix, a: Vector, i: nat, j: nat)
    requires Admissible(AttitudeType2, c, inter, a) && i < |a| && j < |a|
    ensures AttitudeDelta(AttitudeType2, c, inter, a, i, j) * (c[i][j] * c[i][j]) ==
            AttitudeDelta(AttitudeType1, c, inter, a, i, j)
  {
    var w := c[i][j];
    var g := Abs(a[i] - a[j]) * Sign(a[i] + a[j]);
    assert AttitudeDelta(AttitudeType2, c, inter, a, i, j) == (inter[i][j] / w) * g;
    assert AttitudeDelta(AttitudeType1, c, inter, a, i, j) == (inter[i][j] * w) * g;
    calc {
      (inter[i][j] / w) * g * (w * w);
    ==
      ((inter[i][j] / w) * w) * w * g;
    ==  { assert (inter[i][j] / w) * w == inter[i][j]; }
      (inter[i][j] * w) * g;
    }
  }

  /** One step of the fold: `attitudes[i] = attitudes[i] - delta`. */
  function Visit(rule: AttitudeRule, c: Matrix, inter: Matrix, a: Vector, i: nat, j: nat): (r: Vector)
    requires Admissible(rule, c, inter, a) && i < |a| && j < |a|
    ensures |r| == |a|
    ensures r[i] == a[i] - AttitudeDelta(rule, c, inter, a, i, j)
    ensures forall k :: 0 <= k < |a| && k != i ==> r[k] == a[k]
  {
    a[i := a[i] - AttitudeDelta(rule, c, inter, a, i, j)]
  }

  /**
   The pairs `(i, j), (i, j+1), ..., (i, n-1)` of row `i`, in order. Only node
   `i` changes, and a row without interactions changes nothing.
   */
  function RowFold(rule: AttitudeRule, c: Matrix, inter: Matrix, a: Vector, i: nat, j: nat): (r: Vector)
    requires Admissible(rule, c, inter, a) && i < |a| && j <= |a|
    ensures |r| == |a|
    ensures forall k :: 0 <= k < |a| && k != i ==> r[k] == a[k]
    ensures (forall k :: j <= k < |a| ==> inter[i][k] == 0.0) ==> r == a
    decreases |a| - j
  {
    if j == |a| then a
    else RowFold(rule, c, inter, Visit(rule, c, inter, a, i, j), i, j + 1)
  }

  /** Rows `i, i+1, ..., n-1` in order; rows before `i` are not touched. */
  function Fold(rule: AttitudeRule, c: Matrix, inter: Matrix, a: Vector, i: nat): (r: Vector)
    requires Admissible(rule, c, inter, a) && i <= |a|
    ensures |r| == |a|
    ensures forall k :: 0 <= k < i ==> r[k] == a[k]
    decreases |a| - i
  {
    if i == |a| then a
    else Fold(rule, c, inter, RowFold(rule, c, inter, a, i, 0), i + 1)
  }

  /** A node whose interaction row is all zero leaves the fold with the attitude it entered with. */
  lemma {:induction false} FoldKeepsIdleNodes(rule: AttitudeRule, c: Matrix, inter: Matrix, a: Vector, i: nat)
    requires Admissible(rule, c, inter, a) && i <= |a|
    ensures forall k :: 0 <= k < |a| && IdleRow(inter, k) ==> Fold(rule, c, inter, a, i)[k] == a[k]
    decreases |a| - i
  {
    if i < |a| {
      var a' := RowFold(rule, c, inter, a, i, 0);
      FoldKeepsIdleNodes(rule, c, inter, a', i + 1);
      forall k | 0 <= k < |a| && IdleRow(inter, k)
        ensures a'[k] == a[k]
      {
        if k == i {
          assert forall m :: 0 <= m < |a| ==> inter[i][m] == 0.0;
        }
      }
    }
  }

  /**
   The attitude update under a fixed rule: the row-major fold, then clamping
   into [-1, 1]. A node that interacted with nobody is only clamped.
   */
  function UpdateAttitudesWith(c: Matrix, inter: Matrix, a: Vector, rule: AttitudeRule): (r: Vector)
    requires Admissible(rule, c, inter, a)
    ensures |r| == |a| && Within(r, -1.0, 1.0)
    ensures forall i :: 0 <= i < |a| && IdleRow(inter, i) ==> r[i] == Clip(a[i], -1.0, 1.0)
  {
    FoldKeepsIdleNodes(rule, c, inter, a, 0);
    ClipVector(Fold(rule, c, inter, a, 0), -1.0, 1.0)
  }

  /**
   `update_attitudes`: an unsupported method name is an error; otherwise the
   update of its rule, whose result lies in [-1, 1].
   */
  function UpdateAttitudes(c: Matrix, inter: Matrix, a: Vector, name: string): (r: Result<Vector, Error>)
    requires IsSquare(c, |a|) && IsSquare(inter, |a|) && (name == "type2" ==> NoZeroEntry(c))
    ensures r.Ok? <==> name == "type1" || name == "type2" || name == "type3" || name == "type4"
    ensures r.Err? ==> r.error == UnsupportedMethod
    ensures r.Ok? ==> |r.value| == |a| && Within(r.value, -1.0, 1.0)
    ensures r.Ok? ==> forall i :: 0 <= i < |a| && IdleRow(inter, i) ==> r.value[i] == Clip(a[i], -1.0, 1.0)
  {
    match AttitudeRuleOf(name)
    case Err(e) => Err(e)
    case Ok(rule) => Ok(UpdateAttitudesWith(c, inter, a, rule))
  }

  /**
   The in-place double loop of `update_attitudes`, written as the source writes
   it: the `i == j` test skips nothing, and each assignment to `attitudes[i]`
   is seen by the later terms. It computes the row-major fold.
   */
  method UpdateAttitudesInPlace(c: Matrix, inter: Matrix, attitudes: Vector, name: string)
    returns (r: Result<Vector, Error>)
    requires IsSquare(c, |attitudes|) && IsSquare(inter, |attitudes|) && (name == "type2" ==> NoZeroEntry(c))
    ensures r == UpdateAttitudes(c, inter, attitudes, name)
    ensures r.Ok? ==> Within(r.value, -1.0, 1.0)
  {
    var parsed := AttitudeRuleOf(name);
    if parsed.Err? {
      return Err(parsed.error);
    }
    var rule := parsed.value;
    var n := |attitudes|;
    var a := attitudes;
    var i := 0;
    while i < n
      invariant 0 <= i <= n && |a| == n
      invariant Fold(rule, c, inter, attitudes, 0) == Fold(rule, c, inter, a, i)
    {
      var rowStart := a;
      var j := 0;
      while j < n
        invariant 0 <= j <= n && |a| == n
        invariant RowFold(rule, c, inter, rowStart, i, 0) == RowFold(rule, c, inter, a, i, j)
      {
        var delta := AttitudeDelta(rule, c, inter, a, i, j);
        a := a[i := a[i] - delta];
        j := j + 1;
      }
      i := i + 1;
    }
    r := Ok(ClipVector(a, -1.0, 1.0));
  }

  /**
   The self term `(i, i)` leaves the attitudes as they are. For rule type2
   this needs the non-zero self weight that `Admissible` asks for; on a zero
   diagonal the source's self term is `0 / 0` (InitialEdgesBarDividingRule).
   */
  lemma SelfTermVanishes(rule: AttitudeRule, c: Matrix, inter: Matrix, a: Vector, i: nat)
    requires Admissible(rule, c, inter, a) && i < |a|
    ensures Visit(rule, c, inter, a, i, i) == a
  {
  }

  /** Row `i` with the self pair skipped, as a `continue` in place of `next` would give. */
  function RowFoldSkippingSelf(rule: AttitudeRule, c: Matrix, inter: Matrix, a: Vector, i: nat, j: nat): (r: Vector)
    requires Admissible(rule, c, inter, a) && i < |a| && j <= |a|
    ensures |r| == |a|
    decreases |a| - j
  {
    if j == |a| then a
    else if j == i then RowFoldSkippingSelf(rule, c, inter, a, i, j + 1)
    else RowFoldSkippingSelf(rule, c, inter, Visit(rule, c, inter, a, i, j), i, j + 1)
  }

  /**
   Visiting the diagonal, as the source does, gives the same row as skipping
   it, on weights the rule can run on (for type2, no zero weight).
   */
  lemma {:induction false} NoOpNextIsHarmless(rule: AttitudeRule, c: Matrix, inter: Matrix, a: Vector, i: nat, j: nat)
    requires Admissible(rule, c, inter, a) && i < |a| && j <= |a|
    ensures RowFold(rule, c, inter, a, i, j) == RowFoldSkippingSelf(rule, c, inter, a, i, j)
    decreases |a| - j
  {
    if j < |a| {
      if j == i {
        SelfTermVanishes(rule, c, inter, a, i);
        NoOpNextIsHarmless(rule, c, inter, a, i, j + 1);
      } else {
        NoOpNextIsHarmless(rule, c, inter, Visit(rule, c, inter, a, i, j), i, j + 1);
      }
    }
  }

  /**
   The type4 term of pair `(i, j)` computed with `root` standing for `np.sqrt`
   applied to `(a[i] - a[j]) ** 2`.
   */
  function Type4Term(root: real -> real, c: Matrix, inter: Matrix, a: Vector, i: nat, j: nat): real
    requires IsSquare(c, |a|) && IsSquare(inter, |a|) && i < |a| && j < |a|
  {
    (inter[i][j] * c[i][j]) * root(a[i] - a[j]) * Sign(a[i] * a[j])
  }

  /**
   Whatever square root is used, as long as it returns a non-negative root of
   `(a[i] - a[j])²`, the type4 term is the type3 term: SqrtOfSquare leaves
   `|a[i] - a[j]|` as the only such root. This is why the model may write
   type4's `sqrt(x ** 2)` with RootOfSquare, whose value is `|x|`.
   */
  lemma AnyRootGivesType3(root: real -> real, c: Matrix, inter: Matrix, a: Vector, i: nat, j: nat)
    requires Admissible(AttitudeType3, c, inter, a) && i < |a| && j < |a|
    requires 0.0 <= root(a[i] - a[j]) && root(a[i] - a[j]) * root(a[i] - a[j]) == (a[i] - a[j]) * (a[i] - a[j])
    ensures Type4Term(root, c, inter, a, i, j) == AttitudeDelta(AttitudeType3, c, inter, a, i, j)
    ensures Type4Term(root, c, inter, a, i, j) == AttitudeDelta(AttitudeType4, c, inter, a, i, j)
  {
    SqrtOfSquare(a[i] - a[j], root(a[i] - a[j]));
  }

  /**
   Rules type3 and type4 compute the same row. With `sqrt(x ** 2)` written as
   RootOfSquare, whose value is `|x|`, the two terms coincide as written;
   AnyRootGivesType3 shows that no other non-negative root could differ.
   */
  lemma {:induction false} RowFoldType3IsType4(c: Matrix, inter: Matrix, a: Vector, i: nat, j: nat)
    requires Admissible(AttitudeType3, c, inter, a) && i < |a| && j <= |a|
    ensures RowFold(AttitudeType3, c, inter, a, i, j) == RowFold(AttitudeType4, c, inter, a, i, j)
    decreases |a| - j
  {
    if j < |a| {
      assert AttitudeDelta(AttitudeType3, c, inter, a, i, j) == AttitudeDelta(AttitudeType4, c, inter, a, i, j);
      assert Visit(AttitudeType3, c, inter, a, i, j) == Visit(AttitudeType4, c, inter, a, i, j);
      RowFoldType3IsType4(c, inter, Visit(AttitudeType3, c, inter, a, i, j), i, j + 1);
    }
  }

  /** Rules type3 and type4 are the same update over the whole matrix. */
  lemma {:induction false} Type3IsType4(c: Matrix, inter: Matrix, a: Vector, i: nat)
    requires Admissible(AttitudeType3, c, inter, a) && i <= |a|
    ensures Fold(AttitudeType3, c, inter, a, i) == Fold(AttitudeType4, c, inter, a, i)
    decreases |a| - i
  {
    if i < |a| {
      RowFoldType3IsType4(c, inter, a, i, 0);
      Type3IsType4(c, inter, RowFold(AttitudeType3, c, inter, a, i, 0), i + 1);
    }
  }

  /** When all attitudes agree, no term of a row moves anything. */
  lemma {:induction false} RowFoldAtConsensus(rule: AttitudeRule, c: Matrix, inter: Matrix, a: Vector, i: nat, j: nat)
    requires Admissible(rule, c, inter, a) && i < |a| && j <= |a| && Consensus(a)
    ensures RowFold(rule, c, inter, a, i, j) == a
    decreases |a| - j
  {
    if j < |a| {
      assert a[i] == a[j];
      assert Visit(rule, c, inter, a, i, j) == a;
      RowFoldAtConsensus(rule, c, inter, a, i, j + 1);
    }
  }

  /** When all attitudes agree, the whole fold leaves them as they are. */
  lemma {:induction false} FoldAtConsensus(rule: AttitudeRule, c: Matrix, inter: Matrix, a: Vector, i: nat)
    requires Admissible(rule, c, inter, a) && i <= |a| && Consensus(a)
    ensures Fold(rule, c, inter, a, i) == a
    decreases |a| - i
  {
    if i < |a| {
      RowFoldAtConsensus(rule, c, inter, a, i, 0);
      FoldAtConsensus(rule, c, inter, a, i + 1);
    }
  }

  /**
   When all attitudes agree, every edge term vanishes, so every edge rule keeps
   in-range weights whatever the interactions.
   */
  lemma ConsensusKeepsEdges(c: Matrix, inter: Matrix, a: Vector, edgeRule: EdgeRule)
    requires IsSquare(c, |a|) && IsSquare(inter, |a|) && Consensus(a) && EntriesWithin(c, EdgeFloor, 1.0)
    ensures UpdateEdgesWith(c, inter, a, edgeRule) == c
  {
    var c' := UpdateEdgesWith(c, inter, a, edgeRule);
    forall i | 0 <= i < |a|
      ensures c'[i] == c[i]
    {
      forall j | 0 <= j < |a|
        ensures c'[i][j] == c[i][j]
      {
        assert a[i] == a[j];
      }
    }
  }

  /**
   When all attitudes agree, every attitude rule keeps in-range attitudes
   whatever the interactions and weights.
   */
  lemma ConsensusKeepsAttitudes(c: Matrix, inter: Matrix, a: Vector, rule: AttitudeRule)
    requires Admissible(rule, c, inter, a) && Consensus(a) && Within(a, -1.0, 1.0)
    ensures UpdateAttitudesWith(c, inter, a, rule) == a
  {
    FoldAtConsensus(rule, c, inter, a, 0);
  }

  /**
   The fold is not a snapshot update. With all weights and interactions 1 and
   attitudes [0.5, -0.1], rule type1 first moves node 0 to -0.1; node 1 then
   sees a zero distance and stays at -0.1, whereas its term computed from the
   attitudes at the start of the call would move it to -0.7.
   */
  lemma SequentialFoldIsNotSnapshot()
    ensures var ones := [[1.0, 1.0], [1.0, 1.0]];
            var a := [0.5, -0.1];
            && Fold(AttitudeType1, ones, ones, a, 0) == [-0.1, -0.1]
            && a[1] - AttitudeDelta(AttitudeType1, ones, ones, a, 1, 0) == -0.7
  {
    var ones := [[1.0, 1.0], [1.0, 1.0]];
    var a := [0.5, -0.1];
    var row0 := RowFold(AttitudeType1, ones, ones, a, 0, 0);
    assert Visit(AttitudeType1, ones, ones, a, 0, 0) == a;
    assert Visit(AttitudeType1, ones, ones, a, 0, 1) == [-0.1, -0.1];
    assert row0 == [-0.1, -0.1];
    var row1 := RowFold(AttitudeType1, ones, ones, row0, 1, 0);
    assert Visit(AttitudeType1, ones, ones, row0, 1, 0) == row0;
    assert Visit(AttitudeType1, ones, ones, row0, 1, 1) == row0;
    assert row1 == row0;
  }

  /**
   The state of `run_model` after `t` steps of an `n`-node run: the seed rows
   at time 0 followed by one block per step, and once a step has run, the
   state within its bounds and described by the last rows of both tables.
   */
  predicate Recorded(st: Run, n: nat, t: nat, c0: Matrix, a0: Vector,
                     summarize: (Matrix, Vector) -> Summary) {
    StateAfter(st, n, t, c0, a0) && SummaryAfter(st, t, c0, a0, summarize) && TrackerAfter(st, n, t, a0)
  }

  /** The edges and attitudes: the initial ones before any step, within their bounds after one. */
  predicate StateAfter(st: Run, n: nat, t: nat, c0: Matrix, a0: Vector) {
    && IsSquare(st.edges, n) && |st.attitudes| == n
    && (t == 0 ==> st.edges == c0 && st.attitudes == a0)
    && (0 < t ==> EntriesWithin(st.edges, EdgeFloor, 1.0) && Within(st.attitudes, -1.0, 1.0))
  }

  /** The summary table: a seed row at time 0, then one row per step stamped 0, 1, ..., t-1. */
  predicate SummaryAfter(st: Run, t: nat, c0: Matrix, a0: Vector, summarize: (Matrix, Vector) -> Summary) {
    && |st.simSummary| == t + 1
    && st.simSummary[0] == SummaryRow(0, summarize(c0, a0))
    && (forall s :: 1 <= s <= t ==> st.simSummary[s].time == s - 1)
    && (0 < t ==> st.simSummary[t] == SummaryRow(t - 1, summarize(st.edges, st.attitudes)))
  }

  /** The tracker: the seed block of the initial attitudes, then one block of `n` rows per step. */
  predicate TrackerAfter(st: Run, n: nat, t: nat, a0: Vector) {
    && Stamps(st.attitudeTracker) == Block(0, n) + Schedule(n, t)
    && |st.attitudeTracker| >= n && st.attitudeTracker[..n] == Rows(0, a0)
    && (0 < t ==> st.attitudeTracker[|st.attitudeTracker| - n..] == Rows(t - 1, st.attitudes))
  }

  /** One step of `run_model` under rule type1: interactions, then edges, then attitudes on the new edges. */
  function StepModel(edges: Matrix, attitudes: Vector, draw: Matrix, reciprocate: bool): (r: (Matrix, Vector))
    requires IsSquare(edges, |attitudes|) && IsSquare(draw, |attitudes|)
    ensures IsSquare(r.0, |attitudes|) && EntriesWithin(r.0, EdgeFloor, 1.0)
    ensures |r.1| == |attitudes| && Within(r.1, -1.0, 1.0)
  {
    var inter := MakeInteractions(edges, draw, reciprocate);
    var edges' := UpdateEdgesWith(edges, inter, attitudes, EdgeType1);
    (edges', UpdateAttitudesWith(edges', inter, attitudes, AttitudeType1))
  }

  /** A step at consensus changes nothing: equal in-range attitudes and in-range weights are kept. */
  lemma StepAtConsensus(c: Matrix, a: Vector, draw: Matrix, reciprocate: bool)
    requires IsSquare(c, |a|) && IsSquare(draw, |a|)
    requires Consensus(a) && Within(a, -1.0, 1.0) && EntriesWithin(c, EdgeFloor, 1.0)
    ensures StepModel(c, a, draw, reciprocate) == (c, a)
  {
    var inter := MakeInteractions(c, draw, reciprocate);
    ConsensusKeepsEdges(c, inter, a, EdgeType1);
    ConsensusKeepsAttitudes(c, inter, a, AttitudeType1);
  }

  /** The inputs of a run: an `n`-node initial state and an `n × n` draw matrix per step. */
  predicate RunInputs(n: nat, c0: Matrix, a0: Vector, draws: seq<Matrix>) {
    IsSquare(c0, n) && |a0| == n && SizedDraws(draws, n)
  }

  /**
   One step as a total map on states, the transition a run iterates. On
   matching sizes (an `n × n` matrix, `n` attitudes, an `n × n` draw) it is
   `StepModel`; any other input, which no run produces, is left as it is.
   */
  function Next(reciprocate: bool, c: Matrix, a: Vector, draw: Matrix): (r: (Matrix, Vector))
    ensures IsSquare(c, |a|) && IsSquare(draw, |a|) ==>
              IsSquare(r.0, |a|) && EntriesWithin(r.0, EdgeFloor, 1.0) && |r.1| == |a| && Within(r.1, -1.0, 1.0)
  {
    if IsSquare(c, |a|) && IsSquare(draw, |a|) then StepModel(c, a, draw, reciprocate) else (c, a)
  }

  /** `Next` for one setting of `reciprocate`, as a function value. */
  function Transition(reciprocate: bool): (Matrix, Vector, Matrix) -> (Matrix, Vector) {
    (c: Matrix, a: Vector, draw: Matrix) => Next(reciprocate, c, a, draw)
  }

  /** A step of the model keeps weights in `[1e-20, 1]` and attitudes in `[-1, 1]`. */
  lemma TransitionKeepsBounds(reciprocate: bool, n: nat)
    ensures KeepsBounds(Transition(reciprocate), n, EdgeFloor, 1.0, -1.0, 1.0)
  {
    forall c: Matrix, a: Vector, draw: Matrix | Sized((c, a), n) && IsSquare(draw, n)
      ensures Bounded(Transition(reciprocate)(c, a, draw), n, EdgeFloor, 1.0, -1.0, 1.0)
    {
      assert Transition(reciprocate)(c, a, draw) == Next(reciprocate, c, a, draw);
    }
  }

  /**
   The reference tables after `t` steps: the seed block and row at time 0,
   then for step `s` one summary row and one tracker row per node, stamped
   `s`, describing the state after it.
   */
  function History(next: (Matrix, Vector, Matrix) -> (Matrix, Vector), c0: Matrix, a0: Vector,
                   draws: seq<Matrix>, summarize: (Matrix, Vector) -> Summary, t: nat): (r: Run)
    requires t <= |draws|
    ensures (r.edges, r.attitudes) == StateAt(next, c0, a0, draws, t)
    ensures |r.simSummary| == t + 1
  {
    if t == 0 then Run(c0, a0, Rows(0, a0), [SummaryRow(0, summarize(c0, a0))])
    else
      var prev := History(next, c0, a0, draws, summarize, t - 1);
      var st := StateAt(next, c0, a0, draws, t);
      Run(st.0, st.1,
          prev.attitudeTracker + Rows(t - 1, st.1),
          prev.simSummary + [SummaryRow(t - 1, summarize(st.0, st.1))])
  }

  /**
   Row `s + 1` of the reference summary holds the statistics of the state
   after step `s`, and the `k`-th tracker row after the seed block and the
   first `s` steps' rows holds node `k`'s attitude in that state.
   */
  lemma {:induction false} HistoryRowAt(next: (Matrix, Vector, Matrix) -> (Matrix, Vector), c0: Matrix,
                                        a0: Vector, draws: seq<Matrix>,
                                        summarize: (Matrix, Vector) -> Summary, t: nat, s: nat, k: nat)
    requires t <= |draws| && s < t && k < |StateAt(next, c0, a0, draws, s + 1).1|
    ensures var st := StateAt(next, c0, a0, draws, s + 1);
            var h := History(next, c0, a0, draws, summarize, t);
            var base := |History(next, c0, a0, draws, summarize, s).attitudeTracker|;
            && h.simSummary[s + 1] == SummaryRow(s, summarize(st.0, st.1))
            && base + k < |h.attitudeTracker|
            && h.attitudeTracker[base + k] == TrackerRow(s, k, st.1[k])
  {
    var h := History(next, c0, a0, draws, summarize, t);
    var prev := History(next, c0, a0, draws, summarize, t - 1);
    assert h.attitudeTracker == prev.attitudeTracker + Rows(t - 1, h.attitudes);
    if s < t - 1 {
      HistoryRowAt(next, c0, a0, draws, summarize, t - 1, s, k);
      assert h.simSummary[s + 1] == prev.simSummary[s + 1];
    }
  }

  /**
   Under a transition that keeps `n` nodes and the clamping bounds, the
   reference tracker holds the `n` seed rows and `n` rows per step, and every
   row after the seed block records an attitude in `[-1, 1]`.
   */
  lemma {:induction false} TrackedAttitudesBounded(next: (Matrix, Vector, Matrix) -> (Matrix, Vector), n: nat,
                                                   c0: Matrix, a0: Vector, draws: seq<Matrix>,
                                                   summarize: (Matrix, Vector) -> Summary, t: nat)
    requires KeepsBounds(next, n, EdgeFloor, 1.0, -1.0, 1.0) && RunInputs(n, c0, a0, draws) && t <= |draws|
    ensures var tracker := History(next, c0, a0, draws, summarize, t).attitudeTracker;
            && |tracker| == n * (t + 1)
            && forall p :: n <= p < |tracker| ==> -1.0 <= tracker[p].attitude <= 1.0
  {
    if 0 < t {
      TrackedAttitudesBounded(next, n, c0, a0, draws, summarize, t - 1);
      TrajectoryBounded(next, n, EdgeFloor, 1.0, -1.0, 1.0, c0, a0, draws, t);
      MulStep(n, t);
      var prev := History(next, c0, a0, draws, summarize, t - 1).attitudeTracker;
      var st := StateAt(next, c0, a0, draws, t);
      var tracker := History(next, c0, a0, draws, summarize, t).attitudeTracker;
      assert tracker == prev + Rows(t - 1, st.1);
      forall p | n <= p < |tracker|
        ensures -1.0 <= tracker[p].attitude <= 1.0
      {
        if |prev| <= p {
          assert tracker[p] == TrackerRow(t - 1, p - |prev|, st.1[p - |prev|]);
        }
      }
    }
  }

  /**
   Agreement persists: from equal attitudes in `[-1, 1]` and weights in
   `[1e-20, 1]`, the state after every step is the initial state.
   */
  lemma ConsensusPersists(c0: Matrix, a0: Vector, draws: seq<Matrix>, reciprocate: bool, t: nat)
    requires RunInputs(|a0|, c0, a0, draws) && t <= |draws|
    requires Consensus(a0) && Within(a0, -1.0, 1.0) && EntriesWithin(c0, EdgeFloor, 1.0)
    ensures StateAt(Transition(reciprocate), c0, a0, draws, t) == (c0, a0)
  {
    var next := Transition(reciprocate);
    forall s | 0 <= s < t
      ensures next(c0, a0, draws[s]) == (c0, a0)
    {
      StepAtConsensus(c0, a0, draws[s], reciprocate);
      assert next(c0, a0, draws[s]) == Next(reciprocate, c0, a0, draws[s]);
    }
    FixedPointPersists(next, c0, a0, draws, t);
  }

  /** One loop iteration on the reference tables of `t` steps yields those of `t + 1` steps. */
  lemma AdvanceFollowsHistory(c0: Matrix, a0: Vector, draws: seq<Matrix>, reciprocate: bool,
                              summarize: (Matrix, Vector) -> Summary, st: Run, r: Run, t: nat)
    requires RunInputs(|a0|, c0, a0, draws) && t < |draws|
    requires st == History(Transition(reciprocate), c0, a0, draws, summarize, t)
    requires IsSquare(st.edges, |a0|) && |st.attitudes| == |a0|
    requires (r.edges, r.attitudes) == StepModel(st.edges, st.attitudes, draws[t], reciprocate)
    requires r.attitudeTracker == st.attitudeTracker + Rows(t, r.attitudes)
    requires r.simSummary == st.simSummary + [SummaryRow(t, summarize(r.edges, r.attitudes))]
    ensures r == History(Transition(reciprocate), c0, a0, draws, summarize, t + 1)
  {
    var h := History(Transition(reciprocate), c0, a0, draws, summarize, t + 1);
    assert Transition(reciprocate)(st.edges, st.attitudes, draws[t]) == Next(reciprocate, st.edges, st.attitudes, draws[t]);
    assert (h.edges, h.attitudes) == (r.edges, r.attitudes);
  }

  /** Appending one step's tracker rows keeps the seed block and the schedule. */
  function RecordAttitudes(tracker: seq<TrackerRow>, n: nat, t: nat, a0: Vector, a: Vector): (r: seq<TrackerRow>)
    requires Stamps(tracker) == Block(0, n) + Schedule(n, t) && |a| == n
    requires |tracker| >= n && tracker[..n] == Rows(0, a0)
    ensures Stamps(r) == Block(0, n) + Schedule(n, t + 1)
    ensures |r| >= n && r[..n] == Rows(0, a0)
    ensures r[|r| - n..] == Rows(t, a)
  {
    StampsOfAppend(tracker, t, a);
    var r := AppendTracker(tracker, t, a);
    assert r[..n] == tracker[..n];
    r
  }

  /** Step `t` of `run_model` followed by its two table appends. */
  method Advance(st: Run, n: nat, t: nat, c0: Matrix, a0: Vector, draw: Matrix, reciprocate: bool,
                 summarize: (Matrix, Vector) -> Summary) returns (r: Run)
    requires Recorded(st, n, t, c0, a0, summarize) && IsSquare(draw, n)
    ensures Recorded(r, n, t + 1, c0, a0, summarize)
    ensures (r.edges, r.attitudes) == StepModel(st.edges, st.attitudes, draw, reciprocate)
    ensures r.attitudeTracker == st.attitudeTracker + Rows(t, r.attitudes)
    ensures r.simSummary == st.simSummary + [SummaryRow(t, summarize(r.edges, r.attitudes))]
  {
    var next := StepModel(st.edges, st.attitudes, draw, reciprocate);
    var tracker := RecordAttitudes(st.attitudeTracker, n, t, a0, next.1);
    var summary := AppendSummary(st.simSummary, t, summarize(next.0, next.1));
    r := Run(next.0, next.1, tracker, summary);
  }

  /** The tables before the first step: the initial attitudes and one summary row, all at time 0. */
  function Seed(n: nat, c0: Matrix, a0: Vector, summarize: (Matrix, Vector) -> Summary): (r: Run)
    requires IsSquare(c0, n) && |a0| == n
    ensures Recorded(r, n, 0, c0, a0, summarize)
  {
    var r := Run(c0, a0, Rows(0, a0), [SummaryRow(0, summarize(c0, a0))]);
    assert Stamps(r.attitudeTracker) == Block(0, n);
    r
  }

  /**
   `run_model`: seed both tables with the initial state at time 0, then run
   `tmax` steps (none when `tmax < 1`), each appending `n` tracker rows and one
   summary row stamped with the step index starting again at 0. The tables end
   with `n · (tmax + 1)` and `tmax + 1` rows.
   */
  method RunModel(tmax: int, n: nat, c0: Matrix, a0: Vector, reciprocate: bool, draws: seq<Matrix>,
                  summarize: (Matrix, Vector) -> Summary)
    returns (r: Run)
    requires RunInputs(n, c0, a0, draws) && tmax <= |draws|
    ensures r == History(Transition(reciprocate), c0, a0, draws, summarize, if tmax < 0 then 0 else tmax)
    ensures var steps := if tmax < 0 then 0 else tmax;
            && |r.simSummary| == steps + 1
            && |r.attitudeTracker| == n * (steps + 1)
            && Stamps(r.attitudeTracker) == Block(0, n) + Schedule(n, steps)
    ensures r.simSummary[0] == SummaryRow(0, summarize(c0, a0))
    ensures forall s :: 1 <= s <= tmax ==> r.simSummary[s].time == s - 1
    ensures r.attitudeTracker[..n] == Rows(0, a0)
    ensures tmax < 1 ==> r.edges == c0 && r.attitudes == a0
    ensures 1 <= tmax ==> EntriesWithin(r.edges, EdgeFloor, 1.0) && Within(r.attitudes, -1.0, 1.0)
    ensures 1 <= tmax ==> r.simSummary[tmax] == SummaryRow(tmax - 1, summarize(r.edges, r.attitudes))
    ensures 1 <= tmax ==> r.attitudeTracker[|r.attitudeTracker| - n..] == Rows(tmax - 1, r.attitudes)
  {
    var steps := if tmax < 0 then 0 else tmax;
    r := RunSteps(n, steps, c0, a0, reciprocate, draws, summarize);
    ScheduleLength(n, steps);
    assert |r.attitudeTracker| == |Stamps(r.attitudeTracker)|;
  }

  /** The step loop of `run_model`, from the seeded tables through `steps` recorded steps. */
  method RunSteps(n: nat, steps: nat, c0: Matrix, a0: Vector, reciprocate: bool,
                  draws: seq<Matrix>, summarize: (Matrix, Vector) -> Summary)
    returns (r: Run)
    requires RunInputs(n, c0, a0, draws) && steps <= |draws|
    ensures Recorded(r, n, steps, c0, a0, summarize)
    ensures r == History(Transition(reciprocate), c0, a0, draws, summarize, steps)
  {
    r := Seed(n, c0, a0, summarize);
    var t := 0;
    while t < steps
      invariant 0 <= t <= steps
      invariant Recorded(r, n, t, c0, a0, summarize)
      invariant r == History(Transition(reciprocate), c0, a0, draws, summarize, t)
    {
      var st := r;
      r := Advance(r, n, t, c0, a0, draws[t], reciprocate, summarize);
      AdvanceFollowsHistory(c0, a0, draws, reciprocate, summarize, st, r, t);
      t := t + 1;
    }
  }

  /** With at least one step and one node, time 0 is recorded twice in both tables. */
  lemma TimeZeroRecordedTwice(r: Run, n: nat, tmax: int, c0: Matrix, a0: Vector,
                              summarize: (Matrix, Vector) -> Summary)
    requires 1 <= tmax && 1 <= n
    requires |r.simSummary| == tmax + 1 && r.simSummary[0].time == 0
    requires forall s :: 1 <= s <= tmax ==> r.simSummary[s].time == s - 1
    requires Stamps(r.attitudeTracker) == Block(0, n) + Schedule(n, tmax)
    ensures r.simSummary[0].time == r.simSummary[1].time == 0
    ensures r.attitudeTracker[0].time == r.attitudeTracker[n].time == 0
    ensures forall k :: 0 <= k < n ==> r.attitudeTracker[k].time == 0
    ensures forall k :: n <= k < 2 * n ==> r.attitudeTracker[k].time == 0
  {
    var stamps := Stamps(r.attitudeTracker);
    forall k | 0 <= k < n
      ensures r.attitudeTracker[k].time == 0
    {
      assert stamps[k] == Block(0, n)[k];
    }
    forall k | n <= k < 2 * n
      ensures r.attitudeTracker[k].time == 0
    {
      ScheduleAt(n, tmax, 0, k - n);
      assert stamps[k] == Schedule(n, tmax)[k - n];
    }
  }
}

=== FILE: results.dfy ===
/** The outcome of an operation that the source either completes or aborts with an exception. */
module Results {

  /** `Ok` carries the value the source returns; `Err` names the exception it raises. */
  datatype Result<+T, +E> = Ok(value: T) | Err(error: E)
}

=== FILE: tables.dfy ===
/**
 The two append-only result tables: the per-node attitude tracker, one row
 `(time, node, attitude)` per node and time, and the summary table, one row of
 statistics per time. The statistics themselves are floating-point means,
 medians and deviations and are carried as an opaque payload `S`.
 */
module Tables {
  import opened Matrices

  datatype TrackerRow = TrackerRow(time: int, node: int, attitude: real)

  datatype SummaryRow<S> = SummaryRow(time: int, stats: S)

  /** Concatenating one summary row for `time` onto the table. */
  function AppendSummary<S>(table: seq<SummaryRow<S>>, time: int, stats: S): (r: seq<SummaryRow<S>>)
    ensures |r| == |table| + 1
    ensures r[..|table|] == table
    ensures r[|table|] == SummaryRow(time, stats)
  {
    table + [SummaryRow(time, stats)]
  }

  /** The tracker rows of one time: `(time, k, attitudes[k])` for k = 0 .. n-1. */
  function Rows(time: int, attitudes: Vector): (r: seq<TrackerRow>)
    ensures |r| == |attitudes|
  {
    seq(|attitudes|, k requires 0 <= k < |attitudes| => TrackerRow(time, k, attitudes[k]))
  }

  /** Concatenating one row per node onto the tracker. */
  function AppendTracker(table: seq<TrackerRow>, time: int, attitudes: Vector): (r: seq<TrackerRow>)
    ensures |r| == |table| + |attitudes|
    ensures r[..|table|] == table
    ensures forall k :: 0 <= k < |attitudes| ==> r[|table| + k] == TrackerRow(time, k, attitudes[k])
    ensures r[|table|..] == Rows(time, attitudes)
  {
    table + Rows(time, attitudes)
  }

  /** The `(time, node)` key of every tracker row, in table order. */
  function Stamps(rows: seq<TrackerRow>): seq<(int, int)> {
    seq(|rows|, k requires 0 <= k < |rows| => (rows[k].time, rows[k].node))
  }

  /** The keys that one tracker append of `n` attitudes at `time` adds. */
  function Block(time: int, n: nat): seq<(int, int)> {
    seq(n, k requires 0 <= k < n => (time, k))
  }

  /** The keys of `count` tracker appends at times 0, 1, ..., count-1. */
  function Schedule(n: nat, count: nat): seq<(int, int)> {
    if count == 0 then [] else Schedule(n, count - 1) + Block(count - 1, n)
  }

  /**
   Keys sorted by time and then by node: times lie in `[lo, hi)` and never
   decrease, nodes lie in `[0, n)`, and within one time the nodes strictly
   increase.
   */
  ghost predicate Ordered(s: seq<(int, int)>, n: nat, lo: int, hi: int) {
    && (forall p :: 0 <= p < |s| ==> lo <= s[p].0 < hi && 0 <= s[p].1 < n)
    && (forall p, q :: 0 <= p < q < |s| ==> s[p].0 <= s[q].0)
    && (forall p, q :: 0 <= p < q < |s| && s[p].0 == s[q].0 ==> s[p].1 < s[q].1)
  }

  /** Appending to the tracker appends exactly one block of keys. */
  lemma StampsOfAppend(table: seq<TrackerRow>, time: int, attitudes: Vector)
    ensures Stamps(AppendTracker(table, time, attitudes)) == Stamps(table) + Block(time, |attitudes|)
  {
    var r := AppendTracker(table, time, attitudes);
    assert forall p :: 0 <= p < |table| ==> r[p] == table[p];
  }

  /** One more block of `n` rows: `n · t + n = n · (t + 1)`. */
  lemma MulStep(n: nat, t: nat)
    ensures n * t + n == n * (t + 1)
  {
  }

  /** `count` appends of `n` rows each leave `n * count` rows. */
  lemma {:induction false} ScheduleLength(n: nat, count: nat)
    ensures |Schedule(n, count)| == n * count
  {
    if count > 0 {
      ScheduleLength(n, count - 1);
    }
  }

  /** Row `t * n + k` of the schedule is node `k` at time `t`. */
  lemma {:induction false} ScheduleAt(n: nat, count: nat, t: nat, k: nat)
    requires t < count && k < n
    ensures t * n + k < |Schedule(n, count)|
    ensures Schedule(n, count)[t * n + k] == (t, k)
  {
    var prev := Schedule(n, count - 1);
    assert Schedule(n, count) == prev + Block(count - 1, n);
    if t < count - 1 {
      ScheduleAt(n, count - 1, t, k);
    } else {
      ScheduleLength(n, count - 1);
      assert |prev| == t * n;
    }
  }

  /** The schedule is sorted by time, each in `[0, count)`, and then by node. */
  lemma {:induction false} ScheduleOrdered(n: nat, count: nat)
    ensures Ordered(Schedule(n, count), n, 0, count)
  {
    if count > 0 {
      ScheduleOrdered(n, count - 1);
      var s := Schedule(n, count);
      var prev := Schedule(n, count - 1);
      assert s == prev + Block(count - 1, n);
      forall p, q | 0 <= p < q < |s|
        ensures s[p].0 <= s[q].0
        ensures s[p].0 == s[q].0 ==> s[p].1 < s[q].1
      {
        if q < |prev| {
          assert s[p] == prev[p] && s[q] == prev[q];
        } else if p < |prev| {
          assert s[p] == prev[p];
        } else {
          assert s[p] == (count - 1, p - |prev|) && s[q] == (count - 1, q - |prev|);
        }
      }
    }
  }
}

=== FILE: trajectory.dfy ===
/**
 Runs as iterated transitions. Both engines advance a state of `n` nodes (an
 `n × n` weight matrix and `n` attitudes) once per time step, the step
 drawing an `n × n` matrix of uniform numbers; the reference trajectory is
 the state after `t` such steps, and the lemmas here carry bounds and fixed
 points of a single step along it.
 */
module Trajectory {
  import opened Matrices

  /** A state of `n` nodes: an `n × n` weight matrix and `n` attitudes. */
  predicate Sized(st: (Matrix, Vector), n: nat) {
    IsSquare(st.0, n) && |st.1| == n
  }

  /** A state of `n` nodes with weights in `[clo, chi]` and attitudes in `[alo, ahi]`. */
  predicate Bounded(st: (Matrix, Vector), n: nat, clo: real, chi: real, alo: real, ahi: real) {
    Sized(st, n) && EntriesWithin(st.0, clo, chi) && Within(st.1, alo, ahi)
  }

  /** `next` takes every state of `n` nodes and every `n × n` draw to a bounded state of `n` nodes. */
  ghost predicate KeepsBounds(next: (Matrix, Vector, Matrix) -> (Matrix, Vector), n: nat,
                              clo: real, chi: real, alo: real, ahi: real) {
    forall c: Matrix, a: Vector, draw: Matrix ::
      Sized((c, a), n) && IsSquare(draw, n) ==> Bounded(next(c, a, draw), n, clo, chi, alo, ahi)
  }

  /** Every draw of a run is an `n × n` matrix. */
  predicate SizedDraws(draws: seq<Matrix>, n: nat) {
    forall t :: 0 <= t < |draws| ==> IsSquare(draws[t], n)
  }

  /**
   The reference trajectory: the state after `t` applications of `next` to
   `(c0, a0)`, application `s` using draw matrix `draws[s]`.
   */
  function StateAt(next: (Matrix, Vector, Matrix) -> (Matrix, Vector), c0: Matrix, a0: Vector,
                   draws: seq<Matrix>, t: nat): (Matrix, Vector)
    requires t <= |draws|
  {
    if t == 0 then (c0, a0)
    else
      var prev := StateAt(next, c0, a0, draws, t - 1);
      next(prev.0, prev.1, draws[t - 1])
  }

  /**
   Along the trajectory of a transition that keeps the bounds, every state has
   `n` nodes, and every state after the first is bounded.
   */
  lemma {:induction false} TrajectoryBounded(next: (Matrix, Vector, Matrix) -> (Matrix, Vector), n: nat,
                                             clo: real, chi: real, alo: real, ahi: real,
                                             c0: Matrix, a0: Vector, draws: seq<Matrix>, t: nat)
    requires KeepsBounds(next, n, clo, chi, alo, ahi) && Sized((c0, a0), n)
    requires SizedDraws(draws, n) && t <= |draws|
    ensures Sized(StateAt(next, c0, a0, draws, t), n)
    ensures 0 < t ==> Bounded(StateAt(next, c0, a0, draws, t), n, clo, chi, alo, ahi)
  {
    if 0 < t {
      TrajectoryBounded(next, n, clo, chi, alo, ahi, c0, a0, draws, t - 1);
      var prev := StateAt(next, c0, a0, draws, t - 1);
      assert Sized((prev.0, prev.1), n);
    }
  }

  /** A state every draw leaves in place is kept along the whole trajectory. */
  lemma {:induction false} FixedPointPersists(next: (Matrix, Vector, Matrix) -> (Matrix, Vector), c0: Matrix,
                                              a0: Vector, draws: seq<Matrix>, t: nat)
    requires t <= |draws|
    requires forall s :: 0 <= s < t ==> next(c0, a0, draws[s]) == (c0, a0)
    ensures StateAt(next, c0, a0, draws, t) == (c0, a0)
  {
    if 0 < t {
      FixedPointPersists(next, c0, a0, draws, t - 1);
    }
  }
}
